=== FILE: README.md ===
# Shape sorter: sorting library and argument handling

This project models the core of a small Java application that reads geometric shapes from a
file and sorts them with one of six hand-written algorithms. Three command-line flags choose
the input file (`-f`), the comparison (`-t`: height, base area or volume) and the algorithm
(`-s`). The model covers:

- the sorting class: bubble, selection, insertion, merge, quick and heap sort with their helpers
  `merge`, `partition`, `heapify` and `swap`;
- input validation, and the name-to-algorithm dispatch of `benchmarkSort`;
- the pure string handling of the entry class: sort-flag aliases, quoted file names,
  compare-type validation, the argument loop, argument validation, the shape count on the first
  line of a data file, and the indices the checkpoint printout selects.

The shapes are abstracted away. Every algorithm is generic in the element type `T` and in a
comparator `cmp: (T, T) -> int`. The sorts only compare, swap, shift and copy, so each returns
a permutation of its input whatever the comparator. Their order and stability hold under
`Ordering.TotalPreorder`, the `java.util.Comparator` contract: the sign flips when the
arguments are swapped, and `>= 0` is transitive. Each sort states these as implications from
that contract rather than requiring it.

The Java sorts work in place on an array. Here each sort takes the array's contents as a
sequence and returns its contents afterwards. A Java `null` is `None`. The
`IllegalArgumentException` and `StringIndexOutOfBoundsException` the source can throw are the
`Failure` cases of a `Result`.

Modules, in dependency order:

- `Results`: `Option` and `Result`.
- `Ordering`: the comparator contract, and the "greatest first" (`Descending`) and "least
  first" (`Ascending`) orders.
- `Permutation`: `Swap`, and permutations confined to an index range.
- `Stability`: `Filter` and `Stable`. `Filter(cmp, s, x)` is the subsequence of the elements
  equivalent to `x`; a stable sort keeps every such subsequence as it was.
- `SimpleSorts`, `MergeSort`, `QuickSort`, `HeapSort`: the six algorithms and their helpers.
- `Text`: ASCII `toLowerCase` and Java's `trim`.
- `Dispatch`: `validateInput`, the dispatch table and `benchmarkSort`.
- `Int32`: Java `int` wrap-around, used for the findings below.
- `CommandLine`, `ShapeCount`, `Checkpoints`: the entry class's helpers.
- `Ties`: quick sort and heap sort on inputs with equivalent elements, and merge sort under a
  comparator that breaks the contract.

Under the comparator contract, heap sort leaves its result least first and the other five leave
it greatest first. `Dispatch.SortedFor` records this per algorithm, and
`Dispatch.OrientationsDiffer` shows a two-element input where the two orders differ. Under the
same contract the three stable algorithms (bubble, insertion, merge) produce the same array
(`Dispatch.StableAlgorithmsAgree`). Selection sort and quick sort may order equivalent elements
differently from them and from each other. A comparator that breaks the contract promises
only a permutation. For example, with a cyclic comparator where R beats S, S beats P and P
beats R, bubble and insertion sort leave `[R, S, P]` as it is but merge sort returns `[P, R, S]`
(`Ties.CyclicMergeReorders`).

Sorting an already sorted array is not always a no-op. Bubble, insertion, merge and
selection sort return a greatest-first input unchanged (`Dispatch.Run`). Quick sort and heap sort
can reorder equivalent elements of an input already in their own order:

- `Ties.QuickSortReordersTies`: the last element, the first pivot, is moved in front of an
  element equivalent to it.
- `Ties.HeapSortReversesTies`: an input that is already a heap has its root swapped to the end.

## Model

| member | source | states |
|---|---|---|
| Permutation.Swap | src/appDomain/Sorts.java:420-424 | the two positions exchange their elements, everything else is unchanged, and the contents are a permutation |
| Permutation.SwapInvolution | src/appDomain/Sorts.java:420-424 | swapping the same two positions twice restores the array |
| Ordering.IntCompareIsTotalPreorder | src/appDomain/Shape.java:73 | `IntCompare` stands in for `Double.compare` on integer keys, and meets the comparator contract the sorts rely on |
| SimpleSorts.BubblePass | src/appDomain/Sorts.java:46-54 | one inner pass permutes only the unsorted prefix, for any comparator, and a pass with no swap returns the array untouched; under the comparator contract it keeps equivalent elements in order, leaves a least element of the prefix at its end, and a pass with no swap found the prefix already ordered |
| SimpleSorts.BubbleSort | src/appDomain/Sorts.java:35-58 | the result is a permutation of the input for any comparator; under the comparator contract it is greatest first and stable |
| SimpleSorts.SelectMax | src/appDomain/Sorts.java:78-85 | the chosen index lies in the suffix; under the comparator contract it holds a maximum of the suffix, and it is the first such index because the update uses a strict comparison |
| SimpleSorts.SelectionSort | src/appDomain/Sorts.java:70-90 | the result is a permutation of the input for any comparator; under the comparator contract it is greatest first, and an input already greatest first is returned unchanged |
| SimpleSorts.InPlaceMaxIsFirst | src/appDomain/Sorts.java:78-89 | in an ordered array the first maximum of a suffix is its first element, so `swap(maxIdx, i)` exchanges it with itself |
| SimpleSorts.Insert | src/appDomain/Sorts.java:110-120 | the key moves down to just after the last element not smaller than it; the elements it passes shift up by one and are all strictly smaller |
| SimpleSorts.InsertKeepsOrder | src/appDomain/Sorts.java:108-121 | inserting the key into an ordered prefix gives an ordered prefix one longer |
| SimpleSorts.InsertIsStable | src/appDomain/Sorts.java:114 | a key passes only strictly smaller elements, so it never passes an equivalent element |
| SimpleSorts.InsertionSort | src/appDomain/Sorts.java:102-122 | the result is a permutation of the input for any comparator; under the comparator contract it is greatest first and stable |
| MergeSort.MergeSeqPermutation | src/appDomain/Sorts.java:174-206 | the merged sequence holds exactly the elements of both runs |
| MergeSort.MergeSeqOrdered | src/appDomain/Sorts.java:192-200 | merging two greatest-first runs gives a greatest-first run |
| MergeSort.MergeSeqStable | src/appDomain/Sorts.java:194 | ties are taken from the left run first, so each class of equivalent elements keeps its order |
| MergeSort.MergeHeads | src/appDomain/Sorts.java:192-200 | the main loop writes the merge of the two buffers from `left` up, and stops once one buffer is used up |
| MergeSort.Drain | src/appDomain/Sorts.java:202-205 | a tail loop copies the rest of one buffer into consecutive positions |
| MergeSort.Merge | src/appDomain/Sorts.java:174-206 | `[left, right]` now holds the merge of `[left, mid]` and `[mid+1, right]`, and nothing outside that range changes |
| MergeSort.MergeSortSeqCorrect | src/appDomain/Sorts.java:151-163 | recursive merge sort yields a stable, greatest-first permutation |
| MergeSort.MergeSortRange | src/appDomain/Sorts.java:151-163 | the helper sorts exactly `[left, right]`, splitting at the midpoint, and leaves the rest alone |
| MergeSort.MergeSort | src/appDomain/Sorts.java:134-141 | the result is the reference merge sort of the input and a permutation of it for any comparator; under the comparator contract it is greatest first and stable; an input shorter than two is returned as it is |
| QuickSort.Partition | src/appDomain/Sorts.java:251-267 | the pivot index lies in `[low, high]` and holds the old `a[high]`; everything before it compares strictly greater, everything after it not greater; only `[low, high]` is permuted |
| QuickSort.JoinAroundPivot | src/appDomain/Sorts.java:231-240 | two ordered sides around a partitioned pivot form an ordered range |
| QuickSort.QuickSortRange | src/appDomain/Sorts.java:231-240 | for any comparator the helper permutes exactly `[low, high]`, and the old `a[high]` ends after exactly the elements strictly above it and before all the others; under the comparator contract the range is ordered; it terminates on the two shorter sides |
| QuickSort.QuickSort | src/appDomain/Sorts.java:218-221 | the result is a permutation of the input for any comparator, with the last input element placed after exactly the elements strictly above it; under the comparator contract it is greatest first |
| HeapSort.RootDominates | src/appDomain/Sorts.java:279-297 | in a max-heap no element compares greater than the root |
| HeapSort.Heapify | src/appDomain/Sorts.java:307-329 | for any comparator only positions in `[i, n)` change, the contents are permuted, and nothing changes when no child of `i` compares strictly above it; under the comparator contract, if every node of `[lo, n)` except `i` already has the heap property, the whole of `[lo, n)` is a heap afterwards |
| HeapSort.BuildHeap | src/appDomain/Sorts.java:284-287 | the first loop permutes the array for any comparator; under the comparator contract it makes the whole array a max-heap, and leaves an array that already is one unchanged |
| HeapSort.ExtractRoot | src/appDomain/Sorts.java:290-295 | for any comparator the root lands at position `i` and the positions behind it are unchanged; under the comparator contract re-heapifying `[0, i)` keeps a heap in front of a least-first suffix, and no suffix element is smaller than any heap element |
| HeapSort.HeapSort | src/appDomain/Sorts.java:279-297 | the result is a permutation of the input for any comparator; under the comparator contract it is least first, the opposite orientation to the other five, and an input that is already a max-heap has its first element moved to the end |
| Dispatch.Lookup | src/appDomain/Sorts.java:332-342 | exactly the six keys are found, each to the algorithm registered under it |
| Dispatch.LookupName | src/appDomain/Sorts.java:332-342 | each algorithm is registered under exactly one key |
| Dispatch.ValidateInput | src/appDomain/Sorts.java:404-411 | a missing array is reported first, then a missing comparator; with both present there is no error |
| Dispatch.ResolveCases | src/appDomain/Sorts.java:353-366 | the error is, in order: null array, null comparator, null or blank sort type, lower-cased name unknown; otherwise the algorithm is the one named by the lower-cased sort type |
| Dispatch.ResolveIgnoresCase | src/appDomain/Sorts.java:360-361 | lower-casing the sort type first changes nothing |
| Dispatch.PaddedNameIsUnknown | src/appDomain/Sorts.java:356-366 | the blank check trims but the lookup does not, so `" bubble"` is rejected as unknown |
| Dispatch.Run | src/appDomain/Sorts.java:332-342 | running a table entry gives a permutation for any comparator; under the comparator contract it is in that algorithm's order, stable for bubble, insertion and merge, and a greatest-first input is returned unchanged by all but quick and heap sort; quick sort settles the last input element after exactly the elements above it, and heap sort moves the root of an input that is already a heap to the end |
| Dispatch.StableSortIdempotent | src/appDomain/Sorts.java:35-206 | a stable greatest-first sort returns a greatest-first input unchanged |
| Dispatch.BenchmarkSort | src/appDomain/Sorts.java:353-373 | on any rejection the array is untouched; otherwise the array holds what the selected algorithm leaves: a permutation for any comparator, in that algorithm's order under the comparator contract, stable for bubble, insertion and merge, a greatest-first input unchanged for all but quick and heap sort, the last element settled for quick sort and a heap input's root moved last for heap sort |
| Dispatch.OrientationsDiffer | src/appDomain/Sorts.java:285-296 | on `[1, 2]` with the integer comparator, heap sort and the other five give different arrays |
| Dispatch.IntegerOrientations | src/appDomain/Sorts.java:332-342 | running the `heap` entry on `[1, 2]` with the integer comparator leaves `[1, 2]`; running the `bubble` entry leaves `[2, 1]` |
| Ties.QuickSortReordersTies | src/appDomain/Sorts.java:218-267 | quick sort turns the greatest-first input `[(2,0), (1,0), (1,1)]`, compared on the first component, into `[(2,0), (1,1), (1,0)]` |
| Ties.HeapSortReversesTies | src/appDomain/Sorts.java:279-295 | heap sort turns `[(1,0), (1,1)]`, compared on the first component and so already in its order, into `[(1,1), (1,0)]` |
| Ties.CyclicMergeReorders | src/appDomain/Sorts.java:151-206 | a rock-paper-scissors comparator breaks the comparator contract; each neighbour pair of `[R, S, P]` compares above zero, so the `< 0` tests of bubble and insertion sort never fire, yet the reference merge sort that `MergeSort.MergeSort` equals returns `[P, R, S]` |
| Dispatch.AgreementMeansAllEquivalent | src/appDomain/Sorts.java:285-296 | heap sort agrees with another algorithm only when all elements are equivalent |
| Dispatch.StableAlgorithmsAgree | src/appDomain/Sorts.java:35-206 | bubble, insertion and merge sort leave the same array for the same input |
| Text.ToLower | src/appDomain/Main.java:104 | each character is lower-cased on its own; the length is unchanged |
| Text.ToLowerIdempotent | src/appDomain/Main.java:115 | lower-casing twice equals lower-casing once |
| Text.TrimEmptyIffBlank | src/appDomain/Main.java:72 | a string trims to empty exactly when every character is at most a space |
| CommandLine.MapSortTypeAliases | src/appDomain/Main.java:161-187 | a flag maps to a name exactly when it is the name, its first letter, or `z` for heap; every other flag maps to null |
| CommandLine.MapSortTypeDispatches | src/appDomain/Main.java:161-187 | every name produced is a key of the dispatch table |
| CommandLine.ParseFilename | src/appDomain/Main.java:132-137 | a value quoted at both ends loses one quote at each end; any other value is kept; a lone `"` is an out-of-bounds failure |
| CommandLine.ParseFilenameRoundTrip | src/appDomain/Main.java:132-137 | quoting a name and parsing gives the name back |
| CommandLine.ParseCompareTypeIgnoresCase | src/appDomain/Main.java:145-152 | the result ignores case, and is the lower-cased value exactly when that is one of h, height, a, area, v, volume |
| CommandLine.ApplyFailsIff | src/appDomain/Main.java:98-121 | one argument aborts the parse exactly when it is `-f"` in any case |
| CommandLine.ApplyArgumentFields | src/appDomain/Main.java:98-121 | an argument writes only the field of its own lower-cased flag, with the parsed value |
| CommandLine.IgnoredArgument | src/appDomain/Main.java:99-102 | a short argument or an unknown flag changes nothing |
| CommandLine.LastOccurrenceWins | src/appDomain/Main.java:95-124 | a field holds the value of the last argument with its flag |
| CommandLine.AbsentFlagIsNull | src/appDomain/Main.java:95-124 | a field whose flag never occurs stays null |
| CommandLine.ParseFailsOnLoneQuote | src/appDomain/Main.java:95-124 | the parse fails exactly when some argument is a lone quoted `-f` |
| CommandLine.DifferentFlagsCommute | src/appDomain/Main.java:95-124 | two adjacent arguments with different flags may be swapped |
| CommandLine.ValidateArgumentsIff | src/appDomain/Main.java:71-85 | valid means all three fields are present and none is blank |
| CommandLine.ApplyKeepsWellFormed | src/appDomain/Main.java:107-116 | one argument writes only a dispatch key into the sort type and only one of the six accepted values into the compare type |
| CommandLine.ParsedFieldsWellFormed | src/appDomain/Main.java:95-124 | after parsing, a present sort type is a dispatch key and a present compare type is one of the six accepted values |
| CommandLine.ParsedArgumentsValid | src/appDomain/Main.java:71-124 | parsed arguments are valid exactly when the file name is non-blank and both other flags were accepted; a valid sort type then selects a dispatch entry |
| ShapeCount.ParseInt | src/appDomain/Main.java:247 | a parsed value lies in the 32-bit range |
| ShapeCount.ParseIntRoundTrip | src/appDomain/Main.java:247 | the decimal form of any 32-bit value parses back to it |
| ShapeCount.ParseShapeCount | src/appDomain/Main.java:245-257 | a line that parses to a non-negative `int` gives that value; a line that does not parse, or parses to a negative value, gives 0 |
| ShapeCount.FirstLineCount | src/appDomain/Main.java:207 | the count of the first line is the parse of the line with its surrounding blanks trimmed, and never negative |
| ShapeCount.PaddedCountIsRead | src/appDomain/Main.java:207 | blanks around any count from 0 to the largest `int` are trimmed away before it is parsed |
| Text.TrimPadded | src/appDomain/Main.java:207 | `trim` removes exactly the blanks around a string that starts and ends above the space character |
| ShapeCount.ShapeCountRoundTrip | src/appDomain/Main.java:245-257 | the decimal form of a 32-bit value gives that value, or 0 for a negative one |
| ShapeCount.NonNumericCountIsZero | src/appDomain/Main.java:252-255 | a line with a non-digit after the first character gives 0 |
| ShapeCount.OverflowingCountIsZero | src/appDomain/Main.java:252-255 | a number above the 32-bit maximum gives 0 |
| ShapeCount.PlusAndZerosAccepted | src/appDomain/Main.java:247 | a leading plus sign and leading zeros are accepted, as `Integer.parseInt` accepts them |
| Checkpoints.CheckpointIndices | src/appDomain/Main.java:392-412 | the indices printed are, in increasing order, the multiples of 1000 below the length and the last index; none for an empty array |
| Int32.Wrap | src/appDomain/Sorts.java:309-310 | the result is the 32-bit value congruent to the argument, which is the argument itself when already in range |
| Int32.HeapifyChildWraps | src/appDomain/Sorts.java:308-313 | for a heap of 2^30 + 2 elements, the left-child index of node 2^30 wraps to a negative value that passes the `left < n` guard |
| Int32.CheckpointStepWraps | src/appDomain/Main.java:401 | for an array of 2147483001 shapes, stepping the checkpoint index from 2147483000 wraps to a negative value below the length |

## Left out

- Timing: `benchmarkSort` reads the clock around the sort and returns the difference. `Dispatch.BenchmarkSort` returns the selected algorithm and the sorted contents instead.
- Console output: the messages of `printCheckpoints`, `displayResults`, `printUsage` and `getCompareTypeDescription`, and the warnings the argument loop prints. `Sorts.printCheckpoints` is left out as a whole, because it only prints. Only the index selection of the entry class's `printCheckpoints` is modelled.
- File reading in `loadShapesFromFile`, and `parseShape`/`createShape`. They depend on `BufferedReader` and `Double.parseDouble`. Of that method, only the count read from the trimmed first line is modelled (`ShapeCount.FirstLineCount`).
- Shape geometry, `Shape.compareTo`, `ShapeComparator` and `getComparator`: floating-point formulas and `Double.compare`. An abstract comparator satisfying the comparator contract takes their place.
- `validateInput` inside each sort: each public sort repeats the null checks. They are modelled once, in `Dispatch.ValidateInput`, ahead of the table lookup. The sort methods take a present array and comparator.
- `CommandLineArgs` declares its fields `final`, yet `parseArguments` assigns them, which Java does not compile. The model keeps the evident intent: a record whose fields each argument may overwrite.
- `Text.ToLower`: does not model Java's Unicode, locale-dependent `toLowerCase`; only ASCII `A`-`Z` are lower-cased. Two differences follow. Java maps U+212A KELVIN SIGN to `k`, so `-squic\u212A` selects quick sort and `benchmarkSort` accepts `"QUIC\u212A"`, which the model rejects. Under a Turkish default locale Java lower-cases `I` to a dotless `ı`, so `-sI` and `-tHEIGHT` are rejected by Java but accepted by the model.
- `ShapeCount.ParseInt`: does not accept the non-ASCII decimal digits that `Integer.parseInt` also accepts; only `0`-`9` are digits.
- Arrays as values: the Java sorts mutate an array that callers may alias. The model has no aliasing and no `modifies` frames.
- HeapSort.HeapSort, HeapSort.Heapify and Checkpoints.CheckpointIndices: do not model Java's 32-bit index arithmetic. They use the intended unbounded index arithmetic; the wrap-around is shown separately under Findings.

## Findings

| source | as written | input that shows it | evidently intended | confidence | as-written member | corrected member |
|---|---|---|---|---|---|---|
| src/appDomain/Sorts.java:308-313 | `heapify` computes `2 * i + 1` and `2 * i + 2` in 32-bit `int`, which wraps once `i` reaches 2^30 | a heap of n = 2^30 + 2 elements, sifting down from node 2^29 - 1 into node 2^30: the left child wraps to a negative index, `left < n` holds, and `arr[left]` is out of bounds | child indices computed without overflow, so sifting ends at the leaves | not executed | Int32.HeapifyChildWraps | HeapSort.Heapify |
| src/appDomain/Main.java:401 | `printCheckpoints` steps `i += 1000` in 32-bit `int` while `i < shapes.length` | an array of length 2147483001: from i = 2147483000 the step wraps to -2147483296, which is still below the length, so `shapes[i]` is out of bounds | the loop stops after the last multiple of 1000 below the length | not executed | Int32.CheckpointStepWraps | Checkpoints.CheckpointIndices |

=== FILE: checkpoints.dfy ===
/**
 * The positions `printCheckpoints` of the entry class prints after sorting: the first shape,
 * every shape at a positive multiple of 1000, and the last shape unless it was already printed.
 */
module Checkpoints {

  /** The indices printed for `n` shapes, in printing order. Exactly the positions below `n`
      that are a multiple of 1000 or the last one are printed, each once, in increasing order;
      an empty array prints none. */
  method CheckpointIndices(n: int) returns (r: seq<int>)
    requires 0 <= n
    ensures forall k :: k in r <==> 0 <= k < n && (k % 1000 == 0 || k == n - 1)
    ensures forall a, b :: 0 <= a < b < |r| ==> r[a] < r[b]
  {
    if n == 0 {
      return [];
    }
    r := [0];
    var i := 1000;
    while i < n
      invariant 1000 <= i && i % 1000 == 0
      invariant forall k :: k in r <==> 0 <= k < i && k < n && k % 1000 == 0
      invariant forall a, b :: 0 <= a < b < |r| ==> r[a] < r[b]
      invariant forall a :: 0 <= a < |r| ==> r[a] < i
    {
      r := r + [i];
      i := i + 1000;
    }
    if n > 1 {
      var lastIndex := n - 1;
      if lastIndex % 1000 != 0 {
        forall a | 0 <= a < |r|
          ensures r[a] < lastIndex
        {
          assert r[a] in r;
        }
        r := r + [lastIndex];
      }
    }
  }
}

=== FILE: command_line.dfy ===
/**
 * The pure string handling of the application's entry class: the sort-flag aliases, quoted
 * file names, compare-type validation, the argument loop and its validation, and the shape
 * count on the first line of a data file.
 *
 * Arguments have the form `-f<filename>`, `-t<compare type>`, `-s<sort algorithm>`, with no
 * space between flag and value; the flag is case-insensitive. A Java `null` field is `None`.
 */
module CommandLine {
  import opened Results
  import opened Text
  import Dispatch

  /** `mapSortType`: a one-letter alias or the full name of an algorithm gives the full name;
      `z` is a second alias of heap sort. */
  function MapSortType(flag: string): Option<string> {
    if flag == "b" || flag == "bubble" then Some("bubble")
    else if flag == "s" || flag == "selection" then Some("selection")
    else if flag == "i" || flag == "insertion" then Some("insertion")
    else if flag == "m" || flag == "merge" then Some("merge")
    else if flag == "q" || flag == "quick" then Some("quick")
    else if flag == "h" || flag == "heap" || flag == "z" then Some("heap")
    else None
  }

  /** The names `mapSortType` produces are exactly the dispatch keys, and a flag maps to a key
      exactly when it is the key itself, the key's first letter, or `z` for heap sort. */
  lemma MapSortTypeAliases(flag: string, key: string)
    ensures MapSortType(flag) == Some(key) <==>
      key in Dispatch.SortNames && (flag == key || flag == [key[0]] || (flag == "z" && key == "heap"))
  {
  }

  /** Every name `mapSortType` produces is accepted by the dispatch table. */
  lemma MapSortTypeDispatches(flag: string)
    ensures MapSortType(flag).Some? ==> Dispatch.Lookup(MapSortType(flag).value).Some?
  {
  }

  /** The exception `substring` throws when its bounds cross. */
  datatype ArgError = SubstringOutOfBounds(value: string)

  /** `parseFilename`: a value that starts and ends with a double quote loses one quote at each
      end. The lone value `"` starts and ends with the same quote, and the `substring(1, 0)` that
      follows throws. */
  function ParseFilename(value: string): (r: Result<string, ArgError>)
    ensures r.Failure? <==> value == "\""
    ensures r.Success? && |value| >= 2 && value[0] == '"' && value[|value| - 1] == '"' ==>
      value == "\"" + r.value + "\""
    ensures !(|value| >= 1 && value[0] == '"' && value[|value| - 1] == '"') ==> r == Success(value)
  {
    if |value| >= 1 && value[0] == '"' && value[|value| - 1] == '"' then
      if |value| < 2 then Failure(SubstringOutOfBounds(value))
      else Success(value[1..|value| - 1])
    else Success(value)
  }

  /** Quoting a name and parsing it back gives the name, whatever quotes the name holds. */
  lemma ParseFilenameRoundTrip(name: string)
    ensures ParseFilename("\"" + name + "\"") == Success(name)
  {
    var quoted := "\"" + name + "\"";
    assert quoted[1..|quoted| - 1] == name;
  }

  /** The compare types `parseCompareType` accepts, after lower-casing. */
  const CompareTypes: set<string> := {"h", "height", "a", "area", "v", "volume"}

  /** `parseCompareType`: the lower-cased value if it is one of the six compare types, else `null`. */
  function ParseCompareType(value: string): Option<string> {
    var lower := ToLower(value);
    if lower in CompareTypes then Some(lower) else None
  }

  /** A value is accepted exactly when its lower-case form is one of the six compare types, and
      then that lower-case form is the result. The compare type is case-insensitive, and an
      accepted compare type is accepted unchanged when parsed again. */
  lemma ParseCompareTypeIgnoresCase(value: string)
    ensures ParseCompareType(value).Some? <==> ToLower(value) in CompareTypes
    ensures ParseCompareType(value).Some? ==> ParseCompareType(value).value == ToLower(value)
    ensures ParseCompareType(value) == ParseCompareType(ToLower(value))
    ensures ParseCompareType(value).Some? ==>
      ParseCompareType(value).value in CompareTypes &&
      ParseCompareType(ParseCompareType(value).value) == ParseCompareType(value)
  {
    ToLowerIdempotent(value);
  }

  /** The parsed arguments; the source's record of three nullable strings. */
  datatype CommandLineArgs = CommandLineArgs(filename: Option<string>, compareType: Option<string>, sortType: Option<string>)

  /** The record before any argument is seen. */
  const NoArgs := CommandLineArgs(None, None, None)

  /** The lower-cased two-character flag of an argument; empty for an argument too short to
      hold one. */
  function FlagOf(arg: string): string {
    if |arg| < 2 then "" else ToLower(arg[..2])
  }

  /** One round of the loop in `parseArguments`: skip an argument shorter than two characters,
      otherwise dispatch on its lower-cased first two characters. `-f`, `-t` and `-s` overwrite
      their field (with `null` when the value is rejected); any other flag changes nothing. */
  function ApplyArgument(c: CommandLineArgs, arg: string): Result<CommandLineArgs, ArgError> {
    if |arg| < 2 then Success(c)
    else
      var flag := ToLower(arg[..2]);
      var value := arg[2..];
      if flag == "-f" then
        var name :- ParseFilename(value);
        Success(c.(filename := Some(name)))
      else if flag == "-t" then Success(c.(compareType := ParseCompareType(value)))
      else if flag == "-s" then Success(c.(sortType := MapSortType(ToLower(value))))
      else Success(c)
  }

  /** `parseArguments`: the arguments applied in order, starting from the empty record. An
      exception from `parseFilename` ends the parse. */
  function ParseArguments(args: seq<string>): Result<CommandLineArgs, ArgError>
    decreases |args|
  {
    if |args| == 0 then Success(NoArgs)
    else
      var c :- ParseArguments(args[..|args| - 1]);
      ApplyArgument(c, args[|args| - 1])
  }

  /** The field a recognised flag writes. */
  function Field(c: CommandLineArgs, flag: string): Option<string> {
    if flag == "-f" then c.filename
    else if flag == "-t" then c.compareType
    else c.sortType
  }

  /** The value a recognised flag writes into its field, for an argument value that does not
      throw. */
  function FieldValue(flag: string, value: string): Option<string> {
    if flag == "-f" then
      (match ParseFilename(value) case Success(name) => Some(name) case Failure(_) => None)
    else if flag == "-t" then ParseCompareType(value)
    else MapSortType(ToLower(value))
  }

  /** The three recognised flags. */
  const Flags: set<string> := {"-f", "-t", "-s"}

  /** An argument writes the field of its own flag and no other. */
  lemma ApplyArgumentFields(c: CommandLineArgs, arg: string, flag: string)
    requires flag in Flags
    requires ApplyArgument(c, arg).Success?
    ensures FlagOf(arg) == flag ==> Field(ApplyArgument(c, arg).value, flag) == FieldValue(flag, arg[2..])
    ensures FlagOf(arg) != flag ==> Field(ApplyArgument(c, arg).value, flag) == Field(c, flag)
  {
  }

  /** An argument shorter than two characters, or one whose flag is not recognised, is skipped. */
  lemma IgnoredArgument(args: seq<string>, arg: string)
    requires FlagOf(arg) !in Flags
    ensures ParseArguments(args + [arg]) == ParseArguments(args)
  {
    assert (args + [arg])[..|args|] == args;
  }

  /** The last occurrence of a flag decides its field. */
  lemma {:induction false} LastOccurrenceWins(args: seq<string>, i: int, flag: string)
    requires flag in Flags
    requires 0 <= i < |args| && FlagOf(args[i]) == flag
    requires forall j :: i < j < |args| ==> FlagOf(args[j]) != flag
    requires ParseArguments(args).Success?
    ensures Field(ParseArguments(args).value, flag) == FieldValue(flag, args[i][2..])
    decreases |args|
  {
    var prefix := args[..|args| - 1];
    var last := args[|args| - 1];
    assert ParseArguments(prefix).Success?;
    ApplyArgumentFields(ParseArguments(prefix).value, last, flag);
    if i < |args| - 1 {
      assert forall j :: i < j < |prefix| ==> prefix[j] == args[j];
      LastOccurrenceWins(prefix, i, flag);
    }
  }

  /** A flag that never occurs leaves its field `null`. */
  lemma {:induction false} AbsentFlagIsNull(args: seq<string>, flag: string)
    requires flag in Flags
    requires forall j :: 0 <= j < |args| ==> FlagOf(args[j]) != flag
    requires ParseArguments(args).Success?
    ensures Field(ParseArguments(args).value, flag) == None
    decreases |args|
  {
    if |args| > 0 {
      var prefix := args[..|args| - 1];
      assert ParseArguments(prefix).Success?;
      ApplyArgumentFields(ParseArguments(prefix).value, args[|args| - 1], flag);
      assert forall j :: 0 <= j < |prefix| ==> prefix[j] == args[j];
      AbsentFlagIsNull(prefix, flag);
    }
  }

  /** An `-f` argument whose value is the lone double quote. */
  predicate IsLoneQuote(arg: string) {
    FlagOf(arg) == "-f" && arg[2..] == "\""
  }

  /** Some argument is an `-f` with the lone value `"`. */
  predicate HasLoneQuote(args: seq<string>) {
    exists j :: 0 <= j < |args| && IsLoneQuote(args[j])
  }

  /** A single argument throws exactly when it is an `-f` with the lone value `"`. */
  lemma ApplyFailsIff(c: CommandLineArgs, arg: string)
    ensures ApplyArgument(c, arg).Failure? <==> IsLoneQuote(arg)
  {
  }

  /** The lone quote occurs in `args` exactly when it occurs in all but the last, or is the last. */
  lemma HasLoneQuoteSplit(args: seq<string>)
    requires |args| > 0
    ensures HasLoneQuote(args) <==> HasLoneQuote(args[..|args| - 1]) || IsLoneQuote(args[|args| - 1])
  {
    var prefix := args[..|args| - 1];
    if HasLoneQuote(prefix) {
      var j :| 0 <= j < |prefix| && IsLoneQuote(prefix[j]);
      assert args[j] == prefix[j];
    }
    if HasLoneQuote(args) {
      var j :| 0 <= j < |args| && IsLoneQuote(args[j]);
      if j < |prefix| {
        assert prefix[j] == args[j];
      }
    }
  }

  /** The whole parse fails exactly when some `-f` argument has the lone value `"`. */
  lemma {:induction false} ParseFailsOnLoneQuote(args: seq<string>)
    ensures ParseArguments(args).Failure? <==> HasLoneQuote(args)
    decreases |args|
  {
    if |args| > 0 {
      var prefix := args[..|args| - 1];
      ParseFailsOnLoneQuote(prefix);
      HasLoneQuoteSplit(args);
      if ParseArguments(prefix).Success? {
        ApplyFailsIff(ParseArguments(prefix).value, args[|args| - 1]);
      }
    }
  }

  /** Applying two arguments one after the other. */
  function ApplyBoth(c: CommandLineArgs, a: string, b: string): Result<CommandLineArgs, ArgError> {
    var c1 :- ApplyArgument(c, a);
    ApplyArgument(c1, b)
  }

  /** Arguments with different flags may come in either order: the parse is order-insensitive
      except between repetitions of the same flag. */
  lemma DifferentFlagsCommute(args: seq<string>, a: string, b: string)
    requires FlagOf(a) != FlagOf(b)
    ensures ParseArguments(args + [a, b]) == ParseArguments(args + [b, a])
  {
    assert (args + [a, b])[..|args| + 1] == args + [a];
    assert (args + [b, a])[..|args| + 1] == args + [b];
    assert (args + [a])[..|args|] == args;
    assert (args + [b])[..|args|] == args;
    if ParseArguments(args).Success? {
      ApplyCommutes(ParseArguments(args).value, a, b);
    }
  }

  /** The single-step form of `DifferentFlagsCommute`. */
  lemma ApplyCommutes(c: CommandLineArgs, a: string, b: string)
    requires FlagOf(a) != FlagOf(b)
    ensures ApplyBoth(c, a, b) == ApplyBoth(c, b, a)
  {
  }

  /** `validateArguments`: each of the three fields is present and not blank after trimming. */
  function ValidateArguments(c: CommandLineArgs): bool {
    if c.filename.None? || Trim(c.filename.value) == [] then false
    else if c.sortType.None? || Trim(c.sortType.value) == [] then false
    else if c.compareType.None? || Trim(c.compareType.value) == [] then false
    else true
  }

  /** A field passes the check of `validateArguments` when present and not blank. */
  predicate FieldValid(o: Option<string>) {
    o.Some? && Trim(o.value) != []
  }

  /** A present field passes exactly when it is not blank. */
  lemma FieldValidIff(o: Option<string>)
    ensures FieldValid(o) <==> o.Some? && !IsBlank(o.value)
  {
    if o.Some? {
      TrimEmptyIffBlank(o.value);
    }
  }

  /** Valid arguments are those with three present fields none of which is blank. */
  lemma ValidateArgumentsIff(c: CommandLineArgs)
    ensures ValidateArguments(c) <==>
      && c.filename.Some? && !IsBlank(c.filename.value)
      && c.sortType.Some? && !IsBlank(c.sortType.value)
      && c.compareType.Some? && !IsBlank(c.compareType.value)
  {
    assert ValidateArguments(c) == (FieldValid(c.filename) && FieldValid(c.sortType) && FieldValid(c.compareType));
    FieldValidIff(c.filename);
    FieldValidIff(c.sortType);
    FieldValidIff(c.compareType);
  }

  /** After parsing, a present sort type is a dispatch key and a present compare type one of the
      six compare types. */
  lemma {:induction false} ParsedFieldsWellFormed(args: seq<string>)
    requires ParseArguments(args).Success?
    ensures ParseArguments(args).value.sortType.Some? ==>
      ParseArguments(args).value.sortType.value in Dispatch.SortNames
    ensures ParseArguments(args).value.compareType.Some? ==>
      ParseArguments(args).value.compareType.value in CompareTypes
    decreases |args|
  {
    if |args| > 0 {
      var prefix := args[..|args| - 1];
      assert ParseArguments(prefix).Success?;
      ParsedFieldsWellFormed(prefix);
      ApplyKeepsWellFormed(ParseArguments(prefix).value, args[|args| - 1]);
    }
  }

  /** One argument writes only a dispatch key into the sort type and only one of the six compare
      types into the compare type. */
  lemma ApplyKeepsWellFormed(c: CommandLineArgs, arg: string)
    requires c.sortType.Some? ==> c.sortType.value in Dispatch.SortNames
    requires c.compareType.Some? ==> c.compareType.value in CompareTypes
    requires ApplyArgument(c, arg).Success?
    ensures ApplyArgument(c, arg).value.sortType.Some? ==>
      ApplyArgument(c, arg).value.sortType.value in Dispatch.SortNames
    ensures ApplyArgument(c, arg).value.compareType.Some? ==>
      ApplyArgument(c, arg).value.compareType.value in CompareTypes
  {
    if |arg| >= 2 {
      var m := MapSortType(ToLower(arg[2..]));
      if m.Some? {
        MapSortTypeAliases(ToLower(arg[2..]), m.value);
      }
    }
  }

  /** Parsed arguments pass validation exactly when all three flags were given with accepted
      values and the file name is not blank; the sort type then selects an algorithm of the
      dispatch table. */
  lemma ParsedArgumentsValid(args: seq<string>)
    requires ParseArguments(args).Success?
    ensures var c := ParseArguments(args).value;
      ValidateArguments(c) <==>
        c.filename.Some? && !IsBlank(c.filename.value) && c.compareType.Some? && c.sortType.Some?
    ensures var c := ParseArguments(args).value;
      ValidateArguments(c) ==> Dispatch.Lookup(ToLower(c.sortType.value)).Some?
  {
    var c := ParseArguments(args).value;
    ParsedFieldsWellFormed(args);
    ValidateArgumentsIff(c);
    if c.sortType.Some? {
      NamesNotBlank(c.sortType.value);
    }
    if c.compareType.Some? {
      CompareTypesNotBlank(c.compareType.value);
    }
  }

  /** A dispatch key is neither blank nor changed by lower-casing. */
  lemma NamesNotBlank(key: string)
    requires key in Dispatch.SortNames
    ensures !IsBlank(key) && ToLower(key) == key
  {
    NamesHaveNoUpper(key);
    ToLowerIdempotent(key);
    NameStartsAboveSpace(key);
  }

  lemma NameStartsAboveSpace(key: string)
    requires key in Dispatch.SortNames
    ensures |key| > 0 && key[0] > ' '
  {
  }

  lemma NamesHaveNoUpper(key: string)
    requires key in Dispatch.SortNames
    ensures NoUpper(key)
  {
    forall i | 0 <= i < |key|
      ensures !('A' <= key[i] <= 'Z')
    {
      assert 'a' <= key[i] <= 'z';
    }
  }

  /** No compare type is blank. */
  lemma CompareTypesNotBlank(t: string)
    requires t in CompareTypes
    ensures !IsBlank(t)
  {
    assert t[0] > ' ';
  }
}

=== FILE: dispatch.dfy ===
/**
 * The name-to-algorithm dispatch of the sorting class: `validateInput`, the `SORT_DISPATCH`
 * table and `benchmarkSort` without its timing.
 *
 * Java's `null` array, comparator and sort type are `None`; the `IllegalArgumentException`s of
 * the source are the `SortError` cases of a `Failure`.
 */
module Dispatch {
  import opened Results
  import opened Ordering
  import opened Stability
  import opened Text
  import SimpleSorts
  import MergeSort
  import QuickSort
  import HeapSort

  /** The six entries of the dispatch table. */
  datatype Algorithm = Bubble | Selection | Insertion | Merge | Quick | Heap

  /** The key each algorithm is registered under. */
  function Name(alg: Algorithm): string {
    match alg
    case Bubble => "bubble"
    case Selection => "selection"
    case Insertion => "insertion"
    case Merge => "merge"
    case Quick => "quick"
    case Heap => "heap"
  }

  /** The key set of the dispatch table. */
  const SortNames: set<string> := {"bubble", "selection", "insertion", "merge", "quick", "heap"}

  /** A lookup in the dispatch table: exactly the six keys are found, each to the algorithm
      registered under it. */
  function Lookup(key: string): (r: Option<Algorithm>)
    ensures r.Some? <==> key in SortNames
    ensures r.Some? ==> Name(r.value) == key
  {
    if key == "bubble" then Some(Bubble)
    else if key == "selection" then Some(Selection)
    else if key == "insertion" then Some(Insertion)
    else if key == "merge" then Some(Merge)
    else if key == "quick" then Some(Quick)
    else if key == "heap" then Some(Heap)
    else None
  }

  /** Every algorithm is found under its own key, and only there. */
  lemma LookupName(alg: Algorithm, key: string)
    ensures Lookup(Name(alg)) == Some(alg)
    ensures Lookup(key) == Some(alg) <==> key == Name(alg)
  {
  }

  /** The reasons `benchmarkSort` throws. */
  datatype SortError = NullArray | NullComparator | BlankSortType | UnknownSortType(sortType: string)

  /** `validateInput`: the array is checked before the comparator. */
  function ValidateInput<T>(arr: Option<seq<T>>, cmp: Option<(T, T) -> int>): (r: Option<SortError>)
    ensures r == None <==> arr.Some? && cmp.Some?
    ensures r == Some(NullArray) <==> arr.None?
    ensures r == Some(NullComparator) <==> arr.Some? && cmp.None?
  {
    if arr.None? then Some(NullArray)
    else if cmp.None? then Some(NullComparator)
    else None
  }

  /** Everything `benchmarkSort` decides before it moves an element: validate the inputs, reject
      a missing or blank sort type, then look up the lower-cased (but untrimmed) name. */
  function Resolve<T>(arr: Option<seq<T>>, cmp: Option<(T, T) -> int>, sortType: Option<string>): Result<Algorithm, SortError> {
    var invalid := ValidateInput(arr, cmp);
    if invalid.Some? then Failure(invalid.value)
    else if sortType.None? || Trim(sortType.value) == [] then Failure(BlankSortType)
    else
      var found := Lookup(ToLower(sortType.value));
      if found.None? then Failure(UnknownSortType(sortType.value)) else Success(found.value)
  }

  /** The outcome of the dispatch, case by case: the checks come in the order array, comparator,
      sort type, and a sort type is accepted exactly when its lower-case form is one of the six
      keys. */
  lemma ResolveCases<T>(arr: Option<seq<T>>, cmp: Option<(T, T) -> int>, sortType: Option<string>)
    ensures Resolve(arr, cmp, sortType) == Failure(NullArray) <==> arr.None?
    ensures Resolve(arr, cmp, sortType) == Failure(NullComparator) <==> arr.Some? && cmp.None?
    ensures Resolve(arr, cmp, sortType) == Failure(BlankSortType) <==>
      arr.Some? && cmp.Some? && (sortType.None? || IsBlank(sortType.value))
    ensures Resolve(arr, cmp, sortType).Success? <==>
      arr.Some? && cmp.Some? && sortType.Some? && ToLower(sortType.value) in SortNames
    ensures Resolve(arr, cmp, sortType).Success? ==>
      Name(Resolve(arr, cmp, sortType).value) == ToLower(sortType.value)
  {
    if arr.Some? && cmp.Some? && sortType.Some? {
      TrimEmptyIffBlank(sortType.value);
      if IsBlank(sortType.value) {
        BlankNotAName(sortType.value);
      } else {
        ResolveByName(arr, cmp, sortType.value);
      }
    }
  }

  /** No key of the table is blank, nor the lower-case form of a blank string. */
  lemma BlankNotAName(s: string)
    requires IsBlank(s)
    ensures ToLower(s) !in SortNames
  {
    LowerKeepsBlank(s);
    forall name | name in SortNames
      ensures !IsBlank(name)
    {
      assert name[0] > ' ';
    }
  }

  /** The sort type is case-insensitive: a name and its lower-case form resolve alike. */
  lemma ResolveIgnoresCase<T>(arr: Option<seq<T>>, cmp: Option<(T, T) -> int>, s: string)
    ensures Resolve(arr, cmp, Some(ToLower(s))).Success? == Resolve(arr, cmp, Some(s)).Success?
    ensures Resolve(arr, cmp, Some(s)).Success? ==>
      Resolve(arr, cmp, Some(ToLower(s))) == Resolve(arr, cmp, Some(s))
  {
    var l := ToLower(s);
    ToLowerIdempotent(s);
    LowerKeepsBlank(s);
    TrimEmptyIffBlank(s);
    TrimEmptyIffBlank(l);
    if arr.Some? && cmp.Some? && Trim(s) != [] {
      ResolveByName(arr, cmp, s);
      ResolveByName(arr, cmp, l);
    }
  }

  /** Once the inputs are present and the sort type is not blank, the outcome is the lookup of
      the lower-cased sort type. */
  lemma ResolveByName<T>(arr: Option<seq<T>>, cmp: Option<(T, T) -> int>, s: string)
    requires arr.Some? && cmp.Some? && Trim(s) != []
    ensures Resolve(arr, cmp, Some(s)) ==
      var found := Lookup(ToLower(s));
      if found.None? then Failure(UnknownSortType(s)) else Success(found.value)
  {
    assert ValidateInput(arr, cmp) == None;
  }

  /** Lower-casing neither creates nor removes blank characters. */
  lemma LowerKeepsBlank(s: string)
    ensures IsBlank(ToLower(s)) <==> IsBlank(s)
  {
    assert forall i :: 0 <= i < |s| ==> (ToLower(s)[i] <= ' ' <==> s[i] <= ' ');
  }

  /** Surrounding blanks are not trimmed before the lookup: a padded key is unknown. */
  lemma PaddedNameIsUnknown<T>(arr: seq<T>, cmp: (T, T) -> int)
    ensures Resolve(Some(arr), Some(cmp), Some(" bubble")) == Failure(UnknownSortType(" bubble"))
  {
    PaddedNotBlank();
    PaddedNotFound();
    ResolveByName(Some(arr), Some(cmp), " bubble");
  }

  lemma PaddedNotBlank()
    ensures Trim(" bubble") != []
  {
    TrimEmptyIffBlank(" bubble");
    assert " bubble"[1] > ' ';
  }

  lemma PaddedNotFound()
    ensures Lookup(ToLower(" bubble")) == None
  {
    ToLowerIdempotent(" bubble");
    assert NoUpper(" bubble");
  }

  /** The order each algorithm leaves: heap sort least-first, the other five greatest-first. */
  ghost predicate SortedFor<T>(alg: Algorithm, cmp: (T, T) -> int, r: seq<T>) {
    if alg == Heap then Ascending(cmp, r) else Descending(cmp, r)
  }

  /** The three algorithms that keep equivalent elements in their input order. */
  predicate IsStable(alg: Algorithm) {
    alg == Bubble || alg == Insertion || alg == Merge
  }

  /** The four algorithms that leave an input already in their order as it is: the three stable
      ones, and selection sort, whose first largest remaining element is always the one in place. */
  predicate KeepsSorted(alg: Algorithm) {
    IsStable(alg) || alg == Selection
  }

  /** Running the algorithm registered under `Name(alg)`. Whatever the comparator, the array is
      rearranged; under the comparator contract it ends in the algorithm's order, stable for
      bubble, insertion and merge sort, and an input already greatest-first is left as it is by
      every algorithm but quick and heap sort. Quick sort settles the last input element after
      exactly the elements above it, and heap sort moves the root of an input that is already a
      heap to the end, whatever else they promise in common. */
  method Run<T(!new)>(alg: Algorithm, a: seq<T>, cmp: (T, T) -> int) returns (r: seq<T>)
    ensures |r| == |a| && multiset(r) == multiset(a)
    ensures TotalPreorder(cmp) ==> SortedFor(alg, cmp, r)
    ensures TotalPreorder(cmp) && IsStable(alg) ==> Stable(cmp, a, r)
    ensures TotalPreorder(cmp) && KeepsSorted(alg) && Descending(cmp, a) ==> r == a
    ensures alg == Quick && |a| >= 2 ==> exists p :: QuickSort.LastSettled(cmp, a, r, p)
    ensures alg == Heap && TotalPreorder(cmp) && |a| > 0 && HeapSort.HeapFrom(cmp, a, |a|, 0) ==>
      r[|a| - 1] == a[0]
  {
    match alg {
      case Bubble => r := SimpleSorts.BubbleSort(a, cmp);
      case Selection => r := SimpleSorts.SelectionSort(a, cmp);
      case Insertion => r := SimpleSorts.InsertionSort(a, cmp);
      case Merge => r := MergeSort.MergeSort(a, cmp);
      case Quick => r := QuickSort.QuickSort(a, cmp);
      case Heap => r := HeapSort.HeapSort(a, cmp);
    }
    assert |multiset(r)| == |r| && |multiset(a)| == |a|;
    if TotalPreorder(cmp) && IsStable(alg) && Descending(cmp, a) {
      StableSortIdempotent(cmp, a, r);
    }
  }

  /** A stable greatest-first sort returns a greatest-first input unchanged. */
  lemma StableSortIdempotent<T(!new)>(cmp: (T, T) -> int, a: seq<T>, r: seq<T>)
    requires TotalPreorder(cmp)
    requires Descending(cmp, a) && Descending(cmp, r) && Stable(cmp, a, r)
    ensures r == a
  {
    StableDescendingUnique(cmp, r, a);
  }

  /** `benchmarkSort` without the clock: on any rejection nothing has moved; otherwise the array
      now holds what the algorithm its name selects leaves, as `Run` describes it. */
  method BenchmarkSort<T(!new)>(arr: Option<seq<T>>, cmp: Option<(T, T) -> int>, sortType: Option<string>)
    returns (r: Result<Algorithm, SortError>, after: Option<seq<T>>)
    ensures r == Resolve(arr, cmp, sortType)
    ensures r.Failure? ==> after == arr
    ensures r.Success? ==> arr.Some? && cmp.Some? && after.Some?
    ensures r.Success? ==> |after.value| == |arr.value| && multiset(after.value) == multiset(arr.value)
    ensures r.Success? && TotalPreorder(cmp.value) ==> SortedFor(r.value, cmp.value, after.value)
    ensures r.Success? && TotalPreorder(cmp.value) && IsStable(r.value) ==> Stable(cmp.value, arr.value, after.value)
    ensures r.Success? && TotalPreorder(cmp.value) && KeepsSorted(r.value) && Descending(cmp.value, arr.value) ==>
      after == arr
    ensures r.Success? && r.value == Quick && |arr.value| >= 2 ==>
      exists p :: QuickSort.LastSettled(cmp.value, arr.value, after.value, p)
    ensures r.Success? && r.value == Heap && TotalPreorder(cmp.value) && |arr.value| > 0
      && HeapSort.HeapFrom(cmp.value, arr.value, |arr.value|, 0)
      ==> after.value[|arr.value| - 1] == arr.value[0]
  {
    r := Resolve(arr, cmp, sortType);
    if r.Failure? {
      return r, arr;
    }
    var sorted := Run(r.value, arr.value, cmp.value);
    after := Some(sorted);
  }

  /** With the integer comparator on the input `[1, 2]`, the greatest-first order is `[2, 1]` and
      the least-first order `[1, 2]`: heap sort and the other five leave different arrays. */
  lemma OrientationsDiffer(r: seq<int>)
    requires multiset(r) == multiset{1, 2}
    ensures Descending(IntCompare, r) <==> r == [2, 1]
    ensures Ascending(IntCompare, r) <==> r == [1, 2]
  {
    assert |r| == |multiset(r)| == 2;
    assert r[0] in multiset(r) && r[1] in multiset(r);
    assert r == [r[0], r[1]];
  }

  /** Running heap sort and bubble sort from the table on `[1, 2]` with the integer comparator:
      heap sort leaves `[1, 2]`, bubble sort `[2, 1]`. */
  method IntegerOrientations() returns (byHeap: seq<int>, byBubble: seq<int>)
    ensures byHeap == [1, 2] && byBubble == [2, 1]
  {
    IntCompareIsTotalPreorder();
    assert multiset([1, 2]) == multiset{1, 2};
    byHeap := Run(Heap, [1, 2], IntCompare);
    OrientationsDiffer(byHeap);
    byBubble := Run(Bubble, [1, 2], IntCompare);
    OrientationsDiffer(byBubble);
  }

  /** Heap sort agrees with any of the other five on the same input only when every element of the
      result is equivalent to every other. */
  lemma AgreementMeansAllEquivalent<T(!new)>(cmp: (T, T) -> int, other: Algorithm, r: seq<T>, i: int, j: int)
    requires TotalPreorder(cmp)
    requires other != Heap
    requires SortedFor(Heap, cmp, r) && SortedFor(other, cmp, r)
    requires 0 <= i < |r| && 0 <= j < |r|
    ensures Equiv(cmp, r[i], r[j])
  {
    DescendingAndAscendingMeansAllEquivalent(cmp, r, i, j);
  }

  /** The three stable algorithms leave the same array: a greatest-first order that keeps each
      class of equivalent elements in input order is determined by the input. */
  lemma StableAlgorithmsAgree<T(!new)>(cmp: (T, T) -> int, alg1: Algorithm, alg2: Algorithm, a: seq<T>, r1: seq<T>, r2: seq<T>)
    requires TotalPreorder(cmp)
    requires IsStable(alg1) && IsStable(alg2)
    requires SortedFor(alg1, cmp, r1) && Stable(cmp, a, r1)
    requires SortedFor(alg2, cmp, r2) && Stable(cmp, a, r2)
    ensures r1 == r2
  {
    assert Stable(cmp, r2, r1);
    StableDescendingUnique(cmp, r1, r2);
  }
}

=== FILE: heap_sort.dfy ===
/**
 * Heap sort: build a heap whose root is the largest element under the comparator, then move the
 * root behind the shrinking heap, one position at a time. The result is ordered from least to
 * greatest, the opposite orientation to the other five sorts of the same class.
 */
module HeapSort {
  import opened Ordering
  import opened Permutation

  /** Position `k` of the first `n` elements dominates those of its two children `2k+1`, `2k+2`
      that lie inside the heap. */
  ghost predicate HeapAt<T>(cmp: (T, T) -> int, s: seq<T>, n: int, k: int)
    requires 0 <= k && n <= |s|
  {
    && (2 * k + 1 < n ==> cmp(s[k], s[2 * k + 1]) >= 0)
    && (2 * k + 2 < n ==> cmp(s[k], s[2 * k + 2]) >= 0)
  }

  /** Every position of `lo..n-1` dominates its children within the first `n` elements. */
  ghost predicate HeapFrom<T>(cmp: (T, T) -> int, s: seq<T>, n: int, lo: int)
    requires 0 <= lo && n <= |s|
  {
    forall k :: lo <= k < n ==> HeapAt(cmp, s, n, k)
  }

  /** The root of a heap compares at least every element of the heap. */
  lemma {:induction false} RootDominates<T(!new)>(cmp: (T, T) -> int, s: seq<T>, n: int, k: int)
    requires TotalPreorder(cmp)
    requires 0 <= k < n <= |s| && HeapFrom(cmp, s, n, 0)
    ensures cmp(s[0], s[k]) >= 0
    decreases k
  {
    if k == 0 {
      Reflexive(cmp, s[0]);
    } else {
      var parent := (k - 1) / 2;
      assert HeapAt(cmp, s, n, parent);
      RootDominates(cmp, s, n, parent);
    }
  }

  /** The source's `heapify`: if a child of `i` inside the first `n` elements compares strictly
      above the larger of `i` and its left child, swap it into `i` and repeat at that child.
      Whatever the comparator, it only rearranges positions `i..n-1`, and it changes nothing
      when no child of `i` compares strictly above `i`.

      The ghost `lo` names the part of the array that must be a heap afterwards: every position
      of `lo..n-1` except `i` is already one, and the parent of `i`, when it lies in that part,
      dominates the children of `i`. */
  method Heapify<T(!new)>(s: seq<T>, n: int, i: int, cmp: (T, T) -> int, ghost lo: int) returns (r: seq<T>)
    requires 0 <= lo <= i && n <= |s|
    requires TotalPreorder(cmp) ==> forall k :: lo <= k < n && k != i ==> HeapAt(cmp, s, n, k)
    requires TotalPreorder(cmp) && 0 < i && lo <= (i - 1) / 2 ==>
      (2 * i + 1 < n ==> cmp(s[(i - 1) / 2], s[2 * i + 1]) >= 0) &&
      (2 * i + 2 < n ==> cmp(s[(i - 1) / 2], s[2 * i + 2]) >= 0)
    ensures |r| == |s| && multiset(r) == multiset(s)
    ensures forall k :: 0 <= k < |s| && (k < i || n <= k) ==> r[k] == s[k]
    ensures ChildrenNotAbove(cmp, s, n, i) ==> r == s
    ensures TotalPreorder(cmp) ==> HeapFrom(cmp, r, n, lo)
    decreases n - i
  {
    var largest := i;
    var left, right := 2 * i + 1, 2 * i + 2;
    if left < n && cmp(s[left], s[largest]) > 0 {
      largest := left;
    }
    ghost var first := largest;
    if right < n && cmp(s[right], s[largest]) > 0 {
      largest := right;
    }
    if TotalPreorder(cmp) && i < n {
      ChosenDominates(cmp, s, n, i, first, largest);
    }
    if largest != i {
      var t := Swap(s, i, largest);
      if TotalPreorder(cmp) {
        SiftStep(cmp, s, t, n, i, largest, lo);
      }
      r := Heapify(t, n, largest, cmp, lo);
      SiftFrame(s, t, r, n, i, largest);
    } else {
      if TotalPreorder(cmp) {
        HeapAlready(cmp, s, n, i, lo);
      }
      r := s;
    }
  }

  /** No child of `i` inside the first `n` elements compares strictly above `i`: the case in
      which `heapify` swaps nothing. */
  ghost predicate ChildrenNotAbove<T>(cmp: (T, T) -> int, s: seq<T>, n: int, i: int)
    requires 0 <= i && n <= |s|
  {
    && (2 * i + 1 < n ==> cmp(s[2 * i + 1], s[i]) <= 0)
    && (2 * i + 2 < n ==> cmp(s[2 * i + 2], s[i]) <= 0)
  }

  /** A position that dominates its children has no child strictly above it. */
  lemma HeapAtNoChildAbove<T(!new)>(cmp: (T, T) -> int, s: seq<T>, n: int, i: int)
    requires TotalPreorder(cmp)
    requires 0 <= i && n <= |s| && HeapAt(cmp, s, n, i)
    ensures ChildrenNotAbove(cmp, s, n, i)
  {
  }

  /** When `i` already dominates its children, the whole of `lo..n-1` is a heap. */
  lemma HeapAlready<T>(cmp: (T, T) -> int, s: seq<T>, n: int, i: int, lo: int)
    requires 0 <= lo <= i && n <= |s|
    requires forall k :: lo <= k < n && k != i ==> HeapAt(cmp, s, n, k)
    requires i < n ==> HeapAt(cmp, s, n, i)
    ensures HeapFrom(cmp, s, n, lo)
  {
  }

  /** The swap at `i` followed by a sift below `largest` touches only positions `i..n-1`, and
      keeps the multiset. */
  lemma SiftFrame<T>(s: seq<T>, t: seq<T>, r: seq<T>, n: int, i: int, largest: int)
    requires 0 <= i < largest < n <= |s| && t == Swap(s, i, largest)
    requires |r| == |t| && multiset(r) == multiset(t)
    requires forall k :: 0 <= k < |t| && (k < largest || n <= k) ==> r[k] == t[k]
    ensures |r| == |s| && multiset(r) == multiset(s)
    ensures forall k :: 0 <= k < |s| && (k < i || n <= k) ==> r[k] == s[k]
  {
  }

  /** The position `heapify` picks compares at least `i` and each of its children in the heap. */
  lemma ChosenDominates<T(!new)>(cmp: (T, T) -> int, s: seq<T>, n: int, i: int, first: int, largest: int)
    requires TotalPreorder(cmp)
    requires 0 <= i < n <= |s|
    requires first == if 2 * i + 1 < n && cmp(s[2 * i + 1], s[i]) > 0 then 2 * i + 1 else i
    requires largest == if 2 * i + 2 < n && cmp(s[2 * i + 2], s[first]) > 0 then 2 * i + 2 else first
    ensures cmp(s[largest], s[i]) >= 0
    ensures 2 * i + 1 < n ==> cmp(s[largest], s[2 * i + 1]) >= 0
    ensures 2 * i + 2 < n ==> cmp(s[largest], s[2 * i + 2]) >= 0
  {
    Reflexive(cmp, s[i]);
    Reflexive(cmp, s[largest]);
  }

  /** After swapping `i` with its largest child, only the child's position may break the heap,
      and the child's new parent dominates the child's children. */
  lemma SiftStep<T>(cmp: (T, T) -> int, s: seq<T>, t: seq<T>, n: int, i: int, largest: int, lo: int)
    requires 0 <= lo <= i && n <= |s|
    requires largest == 2 * i + 1 || largest == 2 * i + 2
    requires largest < n && t == Swap(s, i, largest)
    requires cmp(s[largest], s[i]) >= 0
    requires 2 * i + 1 < n ==> cmp(s[largest], s[2 * i + 1]) >= 0
    requires 2 * i + 2 < n ==> cmp(s[largest], s[2 * i + 2]) >= 0
    requires forall k :: lo <= k < n && k != i ==> HeapAt(cmp, s, n, k)
    requires 0 < i && lo <= (i - 1) / 2 ==>
      (2 * i + 1 < n ==> cmp(s[(i - 1) / 2], s[2 * i + 1]) >= 0) &&
      (2 * i + 2 < n ==> cmp(s[(i - 1) / 2], s[2 * i + 2]) >= 0)
    ensures forall k :: lo <= k < n && k != largest ==> HeapAt(cmp, t, n, k)
    ensures lo <= (largest - 1) / 2 == i
    ensures 2 * largest + 1 < n ==> cmp(t[i], t[2 * largest + 1]) >= 0
    ensures 2 * largest + 2 < n ==> cmp(t[i], t[2 * largest + 2]) >= 0
  {
    assert HeapAt(cmp, s, n, largest);
    forall k | lo <= k < n && k != largest
      ensures HeapAt(cmp, t, n, k)
    {
      if k == i {
      } else if 0 < i && k == (i - 1) / 2 {
        assert 2 * k + 1 == i || 2 * k + 2 == i;
        assert HeapAt(cmp, s, n, k);
      } else {
        assert HeapAt(cmp, s, n, k);
        assert 2 * k + 1 != i && 2 * k + 2 != i;
        assert 2 * k + 1 != largest && 2 * k + 2 != largest;
      }
    }
  }

  /** The source's `heapSort` on non-null input: build the heap bottom-up from `n/2 - 1` down to
      the root, then repeatedly swap the root with the last heap position and shrink the heap.
      Whatever the comparator, the result is a permutation of the input; under the comparator
      contract it is ordered from least to greatest. An input that is already a heap is left as
      it is by the first loop, so its first element ends up last. */
  method HeapSort<T(!new)>(a: seq<T>, cmp: (T, T) -> int) returns (r: seq<T>)
    ensures |r| == |a| && multiset(r) == multiset(a)
    ensures TotalPreorder(cmp) ==> Ascending(cmp, r)
    ensures TotalPreorder(cmp) && |a| > 0 && HeapFrom(cmp, a, |a|, 0) ==> r[|a| - 1] == a[0]
  {
    var n := |a|;
    r := BuildHeap(a, cmp);
    var i := n - 1;
    while i > 0
      invariant -1 <= i < n && |r| == n && multiset(r) == multiset(a)
      invariant TotalPreorder(cmp) ==> Extracted(cmp, r, i)
      invariant TotalPreorder(cmp) && n > 0 && HeapFrom(cmp, a, n, 0) ==>
        (i == n - 1 ==> r == a) && (i < n - 1 ==> r[n - 1] == a[0])
    {
      r := ExtractRoot(r, i, cmp);
      i := i - 1;
    }
    if TotalPreorder(cmp) && n > 0 {
      assert forall y :: 0 < y < n ==> cmp(r[0], r[y]) <= 0;
    }
  }

  /** The state of the second loop with the heap on `0..i`: a heap in front, the positions behind
      it ordered least-first, and nothing in the heap above anything behind it. */
  ghost predicate Extracted<T>(cmp: (T, T) -> int, r: seq<T>, i: int)
    requires -1 <= i < |r|
  {
    && HeapFrom(cmp, r, i + 1, 0)
    && AscendingBetween(cmp, r, i + 1, |r|)
    && (forall x, y :: 0 <= x <= i < y < |r| ==> cmp(r[x], r[y]) <= 0)
  }

  /** The first loop of the source's `heapSort`: whatever the comparator it rearranges the input,
      and under the comparator contract the result is a heap; an input that is already a heap is
      left unchanged. */
  method BuildHeap<T(!new)>(a: seq<T>, cmp: (T, T) -> int) returns (r: seq<T>)
    ensures |r| == |a| && multiset(r) == multiset(a)
    ensures TotalPreorder(cmp) ==> HeapFrom(cmp, r, |r|, 0)
    ensures TotalPreorder(cmp) && HeapFrom(cmp, a, |a|, 0) ==> r == a
  {
    var n := |a|;
    r := a;
    var i := n / 2 - 1;
    while i >= 0
      invariant -1 <= i < n / 2 && |r| == n && multiset(r) == multiset(a)
      invariant TotalPreorder(cmp) ==> HeapFrom(cmp, r, n, i + 1)
      invariant TotalPreorder(cmp) && HeapFrom(cmp, a, n, 0) ==> r == a
    {
      if TotalPreorder(cmp) && HeapFrom(cmp, a, n, 0) {
        HeapAtNoChildAbove(cmp, r, n, i);
      }
      r := Heapify(r, n, i, cmp, i);
      i := i - 1;
    }
  }

  /** One round of the second loop of the source's `heapSort`: swap the root behind the heap of
      `i + 1` elements and restore the heap on the first `i`. Whatever the comparator, the old
      root lands at `i` and the positions behind it stay as they were. */
  method ExtractRoot<T(!new)>(s: seq<T>, i: int, cmp: (T, T) -> int) returns (r: seq<T>)
    requires 0 < i < |s|
    requires TotalPreorder(cmp) ==> Extracted(cmp, s, i)
    ensures |r| == |s| && multiset(r) == multiset(s)
    ensures r[i] == s[0] && forall k :: i < k < |s| ==> r[k] == s[k]
    ensures TotalPreorder(cmp) ==> Extracted(cmp, r, i - 1)
  {
    var t := Swap(s, 0, i);
    if TotalPreorder(cmp) {
      forall k | 0 < k < i
        ensures HeapAt(cmp, t, i, k)
      {
        assert HeapAt(cmp, s, i + 1, k);
      }
    }
    r := Heapify(t, i, 0, cmp, 0);
    if TotalPreorder(cmp) {
      ExtractedRootBounds(cmp, s, t, r, i);
    }
  }

  /** The moved root compares at most every element behind it and at least every element left
      in the heap, so the sorted suffix grows by one. */
  lemma ExtractedRootBounds<T(!new)>(cmp: (T, T) -> int, s: seq<T>, t: seq<T>, r: seq<T>, i: int)
    requires TotalPreorder(cmp)
    requires 0 < i < |s| && t == Swap(s, 0, i)
    requires HeapFrom(cmp, s, i + 1, 0)
    requires AscendingBetween(cmp, s, i + 1, |s|)
    requires forall x, y :: 0 <= x <= i < y < |s| ==> cmp(s[x], s[y]) <= 0
    requires |r| == |t| && multiset(r) == multiset(t)
    requires forall k :: 0 <= k < |t| && i <= k ==> r[k] == t[k]
    ensures AscendingBetween(cmp, r, i, |r|)
    ensures forall x, y :: 0 <= x < i <= y < |r| ==> cmp(r[x], r[y]) <= 0
  {
    SuffixGrows(cmp, s, r, i);
    HeapBelowMoved(cmp, s, t, i);
    PrefixStillBelow(cmp, s, t, r, i);
    forall x, y | 0 <= x < i <= y < |r|
      ensures cmp(r[x], r[y]) <= 0
    {
      if y == i {
        assert r[y] == s[0];
      } else {
        assert r[y] == s[y];
      }
    }
  }

  /** Re-heapifying the prefix only rearranges it, so its elements stay below the root and the
      suffix. */
  lemma PrefixStillBelow<T>(cmp: (T, T) -> int, s: seq<T>, t: seq<T>, r: seq<T>, i: int)
    requires 0 < i < |s| && |t| == |s| && |r| == |t| && multiset(r) == multiset(t)
    requires forall k :: 0 <= k < |t| && i <= k ==> r[k] == t[k]
    requires forall k :: 0 <= k < i ==> cmp(t[k], s[0]) <= 0 && forall y :: i < y < |s| ==> cmp(t[k], s[y]) <= 0
    ensures forall k :: 0 <= k < i ==> cmp(r[k], s[0]) <= 0 && forall y :: i < y < |s| ==> cmp(r[k], s[y]) <= 0
  {
    assert SameOutside(t, r, 0, i);
    WholeToRange(t, r, 0, i);
    var root := s[0];
    RangeKeeps(t, r, 0, i, e => cmp(e, root) <= 0 && forall y :: i < y < |s| ==> cmp(e, s[y]) <= 0);
  }

  /** With the root moved to position `i`, positions `i..` are ordered least-first. */
  lemma SuffixGrows<T>(cmp: (T, T) -> int, s: seq<T>, r: seq<T>, i: int)
    requires 0 < i < |s| && |r| == |s| && r[i] == s[0]
    requires forall k :: i < k < |s| ==> r[k] == s[k]
    requires AscendingBetween(cmp, s, i + 1, |s|)
    requires forall x, y :: 0 <= x <= i < y < |s| ==> cmp(s[x], s[y]) <= 0
    ensures AscendingBetween(cmp, r, i, |r|)
  {
    forall a, b | i <= a < b < |r|
      ensures cmp(r[a], r[b]) <= 0
    {
      assert r[b] == s[b];
      if a > i {
        assert r[a] == s[a];
      }
    }
  }

  /** Every element left in front of the moved root compares at most the root and at most every
      element behind it. */
  lemma HeapBelowMoved<T(!new)>(cmp: (T, T) -> int, s: seq<T>, t: seq<T>, i: int)
    requires TotalPreorder(cmp)
    requires 0 < i < |s| && t == Swap(s, 0, i)
    requires HeapFrom(cmp, s, i + 1, 0)
    requires forall x, y :: 0 <= x <= i < y < |s| ==> cmp(s[x], s[y]) <= 0
    ensures forall k :: 0 <= k < i ==> cmp(t[k], s[0]) <= 0 && forall y :: i < y < |s| ==> cmp(t[k], s[y]) <= 0
  {
    forall k | 0 <= k < i
      ensures cmp(t[k], s[0]) <= 0 && forall y :: i < y < |s| ==> cmp(t[k], s[y]) <= 0
    {
      var src := if k == 0 then i else k;
      assert t[k] == s[src];
      RootDominates(cmp, s, i + 1, src);
    }
  }
}

=== FILE: int32.dfy ===
/**
 * Java `int` arithmetic, for the two index computations whose 32-bit wrap-around matters: the
 * child index `2 * i + 1` of `heapify` and the step `i += 1000` of the checkpoint loop. The rest
 * of the model computes these indices without wrap-around, as the code evidently intends.
 */
module Int32 {

  const MinInt32: int := -0x8000_0000
  const MaxInt32: int := 0x7fff_ffff
  const Modulus: int := 0x1_0000_0000

  /** The `int` a Java expression yields for the mathematical value `x`. */
  function Wrap(x: int): (r: int)
    ensures MinInt32 <= r <= MaxInt32
    ensures (r - x) % Modulus == 0
    ensures MinInt32 <= x <= MaxInt32 ==> r == x
  {
    (x - MinInt32) % Modulus + MinInt32
  }

  /** `heapify`'s left child index as written, in `int` arithmetic. */
  function LeftChild(i: int): int {
    Wrap(2 * i + 1)
  }

  /** In an array of `2^30 + 2` elements, the build loop calls `heapify` at `2^29 - 1`, whose
      right child `2^30` is inside the array. Should that child be the largest of the three,
      `heapify` recurses at `2^30`, where the left child index wraps to a negative number: the
      guard `left < n` holds and the array read that follows is out of bounds. */
  lemma HeapifyChildWraps()
    ensures var n, parent, i := 0x4000_0002, 0x1fff_ffff, 0x4000_0000;
      && n <= MaxInt32
      && parent <= n / 2 - 1 && 2 * parent + 2 == i && i < n
      && LeftChild(i) < 0 && LeftChild(i) < n
  {
  }

  /** The checkpoint loop's step as written, in `int` arithmetic. */
  function NextCheckpoint(i: int): int {
    Wrap(i + 1000)
  }

  /** For an array of 2,147,483,001 shapes the loop prints position 2,147,483,000 and then steps
      to a negative index, which still passes the guard `i < shapes.length`; the read that
      follows is out of bounds. */
  lemma CheckpointStepWraps()
    ensures var n, i := 2_147_483_001, 2_147_483_000;
      && n <= MaxInt32
      && i % 1000 == 0 && i < n
      && NextCheckpoint(i) == -2_147_483_296 && NextCheckpoint(i) < n
  {
  }
}

=== FILE: merge_sort.dfy ===
/**
 * Merge sort: recursive halving at `mid = left + (right - left) / 2`, then a merge of the two
 * ordered halves through two temporary buffers, taking from the left buffer on ties.
 *
 * `MergeSeq` and `MergeSortSeq` are reference definitions on sequences; the loop-based `Merge`
 * and the recursive `MergeSortRange` are proved to compute exactly them.
 */
module MergeSort {
  import opened Ordering
  import opened Permutation
  import opened Stability

  /** The stable merge of two sequences: the head of `left` goes first unless it compares
      strictly below the head of `right`. */
  function MergeSeq<T>(cmp: (T, T) -> int, left: seq<T>, right: seq<T>): seq<T>
    decreases |left| + |right|
  {
    if |left| == 0 then right
    else if |right| == 0 then left
    else if cmp(left[0], right[0]) >= 0 then [left[0]] + MergeSeq(cmp, left[1..], right)
    else [right[0]] + MergeSeq(cmp, left, right[1..])
  }

  /** Size of the left half when positions `left..right` (`n` of them) split at the midpoint. */
  function LeftHalf(n: int): int {
    (n - 1) / 2 + 1
  }

  /** The reference merge sort on a sequence. */
  function MergeSortSeq<T>(cmp: (T, T) -> int, xs: seq<T>): seq<T>
    decreases |xs|
  {
    if |xs| < 2 then xs
    else
      var m := LeftHalf(|xs|);
      MergeSeq(cmp, MergeSortSeq(cmp, xs[..m]), MergeSortSeq(cmp, xs[m..]))
  }

  /** The merge holds exactly the elements of its two inputs. */
  lemma MergeSeqPermutation<T>(cmp: (T, T) -> int, left: seq<T>, right: seq<T>)
    ensures |MergeSeq(cmp, left, right)| == |left| + |right|
    ensures multiset(MergeSeq(cmp, left, right)) == multiset(left) + multiset(right)
  {
    MergeSeqMultiset(cmp, left, right);
    assert |MergeSeq(cmp, left, right)| == |multiset(MergeSeq(cmp, left, right))|;
  }

  lemma {:induction false} MergeSeqMultiset<T>(cmp: (T, T) -> int, left: seq<T>, right: seq<T>)
    ensures multiset(MergeSeq(cmp, left, right)) == multiset(left) + multiset(right)
    decreases |left| + |right|
  {
    if |left| == 0 || |right| == 0 {
    } else if cmp(left[0], right[0]) >= 0 {
      MergeSeqMultiset(cmp, left[1..], right);
      ConsMultiset(left, MergeSeq(cmp, left[1..], right), right);
    } else {
      MergeSeqMultiset(cmp, left, right[1..]);
      ConsMultiset(right, MergeSeq(cmp, left, right[1..]), left);
    }
  }

  /** Putting the head of `a` back in front of a sequence holding the rest of `a` and `b`. */
  lemma ConsMultiset<T>(a: seq<T>, rest: seq<T>, b: seq<T>)
    requires |a| > 0 && multiset(rest) == multiset(a[1..]) + multiset(b)
    ensures multiset([a[0]] + rest) == multiset(a) + multiset(b)
  {
    assert a == [a[0]] + a[1..];
  }

  /** A value compared at least every element of both inputs compares at least every element of
      their merge. */
  lemma MergeSeqBounded<T>(cmp: (T, T) -> int, left: seq<T>, right: seq<T>, b: T)
    requires forall k :: 0 <= k < |left| ==> cmp(b, left[k]) >= 0
    requires forall k :: 0 <= k < |right| ==> cmp(b, right[k]) >= 0
    ensures forall k :: 0 <= k < |MergeSeq(cmp, left, right)| ==> cmp(b, MergeSeq(cmp, left, right)[k]) >= 0
  {
    MergeSeqPermutation(cmp, left, right);
    assert multiset(MergeSeq(cmp, left, right)) == multiset(left + right);
    PermutationKeeps(MergeSeq(cmp, left, right), left + right, e => cmp(b, e) >= 0);
  }

  /** Merging two ordered sequences gives an ordered sequence. */
  lemma {:induction false} MergeSeqOrdered<T(!new)>(cmp: (T, T) -> int, left: seq<T>, right: seq<T>)
    requires TotalPreorder(cmp)
    requires Descending(cmp, left) && Descending(cmp, right)
    ensures Descending(cmp, MergeSeq(cmp, left, right))
    decreases |left| + |right|
  {
    if |left| == 0 || |right| == 0 {
    } else if cmp(left[0], right[0]) >= 0 {
      MergeSeqOrdered(cmp, left[1..], right);
      HeadBoundsRest(cmp, left, right);
      MergeSeqBounded(cmp, left[1..], right, left[0]);
      ConsDescending(cmp, left[0], MergeSeq(cmp, left[1..], right));
    } else {
      MergeSeqOrdered(cmp, left, right[1..]);
      HeadBoundsRest(cmp, right, left);
      MergeSeqBounded(cmp, left, right[1..], right[0]);
      ConsDescending(cmp, right[0], MergeSeq(cmp, left, right[1..]));
    }
  }

  /** The head of an ordered `a` that compares at least the head of an ordered `b` compares at
      least every other element of both. */
  lemma HeadBoundsRest<T(!new)>(cmp: (T, T) -> int, a: seq<T>, b: seq<T>)
    requires TotalPreorder(cmp)
    requires Descending(cmp, a) && Descending(cmp, b) && |a| > 0 && |b| > 0
    requires cmp(a[0], b[0]) >= 0
    ensures forall k :: 0 <= k < |a[1..]| ==> cmp(a[0], a[1..][k]) >= 0
    ensures forall k :: 0 <= k < |b| ==> cmp(a[0], b[k]) >= 0
  {
    forall k | 0 <= k < |b|
      ensures cmp(a[0], b[k]) >= 0
    {
      if k > 0 {
        assert cmp(b[0], b[k]) >= 0;
      }
    }
  }

  /** An ordered sequence behind a head that compares at least all of it is ordered. */
  lemma ConsDescending<T>(cmp: (T, T) -> int, h: T, rest: seq<T>)
    requires Descending(cmp, rest)
    requires forall k :: 0 <= k < |rest| ==> cmp(h, rest[k]) >= 0
    ensures Descending(cmp, [h] + rest)
  {
    var s := [h] + rest;
    forall i, j | 0 <= i < j < |s|
      ensures cmp(s[i], s[j]) >= 0
    {
      assert s[j] == rest[j - 1];
      if i > 0 {
        assert s[i] == rest[i - 1];
      }
    }
  }

  /** When the head of an ordered `left` compares strictly below `b`, nothing in `left` is
      equivalent to `b`. */
  lemma BelowHeadNotEquivalent<T(!new)>(cmp: (T, T) -> int, left: seq<T>, b: T, x: T)
    requires TotalPreorder(cmp)
    requires Descending(cmp, left) && |left| > 0
    requires cmp(left[0], b) < 0 && cmp(b, x) == 0
    ensures Filter(cmp, left, x) == []
  {
    forall k | 0 <= k < |left|
      ensures cmp(left[k], x) != 0
    {
      assert cmp(left[0], left[k]) >= 0 || k == 0;
      assert cmp(left[k], b) < 0;
      StrictNotBothEquivalent(cmp, left[k], b, x);
    }
    FilterNone(cmp, left, x);
  }

  /** Merging ordered sequences keeps each class in order, the left input's members first. */
  lemma {:induction false} MergeSeqStable<T(!new)>(cmp: (T, T) -> int, left: seq<T>, right: seq<T>, x: T)
    requires TotalPreorder(cmp)
    requires Descending(cmp, left) && Descending(cmp, right)
    ensures Filter(cmp, MergeSeq(cmp, left, right), x) == Filter(cmp, left, x) + Filter(cmp, right, x)
    decreases |left| + |right|
  {
    if |left| == 0 || |right| == 0 {
    } else if cmp(left[0], right[0]) >= 0 {
      MergeSeqStable(cmp, left[1..], right, x);
      TakeLeftStable(cmp, left, right, x);
    } else {
      MergeSeqStable(cmp, left, right[1..], x);
      TakeRightStable(cmp, left, right, x);
    }
  }

  /** The merge's first element when the left head is taken, and when the right head is. */
  lemma MergeSeqCons<T>(cmp: (T, T) -> int, left: seq<T>, right: seq<T>)
    requires |left| > 0 && |right| > 0
    ensures cmp(left[0], right[0]) >= 0 ==>
      MergeSeq(cmp, left, right) == [left[0]] + MergeSeq(cmp, left[1..], right)
    ensures cmp(left[0], right[0]) < 0 ==>
      MergeSeq(cmp, left, right) == [right[0]] + MergeSeq(cmp, left, right[1..])
  {
  }

  lemma TakeLeftStable<T>(cmp: (T, T) -> int, left: seq<T>, right: seq<T>, x: T)
    requires |left| > 0 && |right| > 0 && cmp(left[0], right[0]) >= 0
    requires Filter(cmp, MergeSeq(cmp, left[1..], right), x) == Filter(cmp, left[1..], x) + Filter(cmp, right, x)
    ensures Filter(cmp, MergeSeq(cmp, left, right), x) == Filter(cmp, left, x) + Filter(cmp, right, x)
  {
    MergeSeqCons(cmp, left, right);
    FilterCons(cmp, left, x);
    FilterConcat(cmp, [left[0]], MergeSeq(cmp, left[1..], right), x);
    ConcatAssoc(Filter(cmp, [left[0]], x), Filter(cmp, left[1..], x), Filter(cmp, right, x));
  }

  lemma TakeRightStable<T(!new)>(cmp: (T, T) -> int, left: seq<T>, right: seq<T>, x: T)
    requires TotalPreorder(cmp)
    requires Descending(cmp, left)
    requires |left| > 0 && |right| > 0 && cmp(left[0], right[0]) < 0
    requires Filter(cmp, MergeSeq(cmp, left, right[1..]), x) == Filter(cmp, left, x) + Filter(cmp, right[1..], x)
    ensures Filter(cmp, MergeSeq(cmp, left, right), x) == Filter(cmp, left, x) + Filter(cmp, right, x)
  {
    var head, fl, fr := Filter(cmp, [right[0]], x), Filter(cmp, left, x), Filter(cmp, right[1..], x);
    MergeSeqCons(cmp, left, right);
    FilterCons(cmp, right, x);
    FilterConcat(cmp, [right[0]], MergeSeq(cmp, left, right[1..]), x);
    if cmp(right[0], x) == 0 {
      BelowHeadNotEquivalent(cmp, left, right[0], x);
    }
    ExchangeWithEmpty(head, fl, fr);
  }

  /** Two blocks commute in a concatenation when one of them is empty. */
  lemma ExchangeWithEmpty<T>(a: seq<T>, b: seq<T>, c: seq<T>)
    requires a == [] || b == []
    ensures a + (b + c) == b + (a + c)
  {
    if a == [] {
      assert a + (b + c) == b + c;
      assert a + c == c;
    } else {
      assert b + (a + c) == a + c;
      assert b + c == c;
    }
  }

  /** The reference merge sort is an ordered, stable permutation of its input. */
  lemma MergeSortSeqCorrect<T(!new)>(cmp: (T, T) -> int, xs: seq<T>)
    requires TotalPreorder(cmp)
    ensures |MergeSortSeq(cmp, xs)| == |xs|
    ensures multiset(MergeSortSeq(cmp, xs)) == multiset(xs)
    ensures Descending(cmp, MergeSortSeq(cmp, xs))
    ensures Stable(cmp, xs, MergeSortSeq(cmp, xs))
  {
    MergeSortSeqLength(cmp, xs);
    MergeSortSeqPermutation(cmp, xs);
    MergeSortSeqOrdered(cmp, xs);
    MergeSortSeqStable(cmp, xs);
  }

  /** The reference merge sort keeps the multiset of its input. */
  lemma {:induction false} MergeSortSeqPermutation<T>(cmp: (T, T) -> int, xs: seq<T>)
    ensures multiset(MergeSortSeq(cmp, xs)) == multiset(xs)
    decreases |xs|
  {
    if |xs| >= 2 {
      var m := LeftHalf(|xs|);
      var l, r := MergeSortSeq(cmp, xs[..m]), MergeSortSeq(cmp, xs[m..]);
      assert MergeSortSeq(cmp, xs) == MergeSeq(cmp, l, r);
      MergeSortSeqPermutation(cmp, xs[..m]);
      MergeSortSeqPermutation(cmp, xs[m..]);
      MergeSeqPermutation(cmp, l, r);
      assert multiset(xs) == multiset(xs[..m]) + multiset(xs[m..]) by {
        assert xs == xs[..m] + xs[m..];
      }
    }
  }

  /** The reference merge sort leaves its result greatest first. */
  lemma {:induction false} MergeSortSeqOrdered<T(!new)>(cmp: (T, T) -> int, xs: seq<T>)
    requires TotalPreorder(cmp)
    ensures Descending(cmp, MergeSortSeq(cmp, xs))
    decreases |xs|
  {
    if |xs| >= 2 {
      var m := LeftHalf(|xs|);
      MergeSortSeqOrdered(cmp, xs[..m]);
      MergeSortSeqOrdered(cmp, xs[m..]);
      MergeSeqOrdered(cmp, MergeSortSeq(cmp, xs[..m]), MergeSortSeq(cmp, xs[m..]));
    }
  }

  /** The reference merge sort keeps every class of equivalent elements in input order. */
  lemma {:induction false} MergeSortSeqStable<T(!new)>(cmp: (T, T) -> int, xs: seq<T>)
    requires TotalPreorder(cmp)
    ensures Stable(cmp, xs, MergeSortSeq(cmp, xs))
    decreases |xs|
  {
    if |xs| >= 2 {
      var m := LeftHalf(|xs|);
      var l, r := MergeSortSeq(cmp, xs[..m]), MergeSortSeq(cmp, xs[m..]);
      MergeSortSeqStable(cmp, xs[..m]);
      MergeSortSeqStable(cmp, xs[m..]);
      MergeSortSeqOrdered(cmp, xs[..m]);
      MergeSortSeqOrdered(cmp, xs[m..]);
      MergeHalvesStable(cmp, xs, m, l, r);
    }
  }

  /** Merging stable sorts of the two halves gives a stable arrangement of the whole. */
  lemma MergeHalvesStable<T(!new)>(cmp: (T, T) -> int, xs: seq<T>, m: int, l: seq<T>, r: seq<T>)
    requires TotalPreorder(cmp)
    requires 0 <= m <= |xs|
    requires Descending(cmp, l) && Stable(cmp, xs[..m], l)
    requires Descending(cmp, r) && Stable(cmp, xs[m..], r)
    ensures Stable(cmp, xs, MergeSeq(cmp, l, r))
  {
    assert xs == xs[..m] + xs[m..];
    forall x
      ensures Filter(cmp, MergeSeq(cmp, l, r), x) == Filter(cmp, xs, x)
    {
      MergeSeqStable(cmp, l, r, x);
      FilterConcat(cmp, xs[..m], xs[m..], x);
    }
  }

  /** One step of the merge on suffixes: which head goes next. */
  lemma MergeSeqStep<T>(cmp: (T, T) -> int, left: seq<T>, right: seq<T>, i: int, j: int)
    requires 0 <= i <= |left| && 0 <= j <= |right| && (i < |left| || j < |right|)
    ensures i < |left| && (j == |right| || cmp(left[i], right[j]) >= 0) ==>
      MergeSeq(cmp, left[i..], right[j..]) == [left[i]] + MergeSeq(cmp, left[i + 1..], right[j..])
    ensures j < |right| && (i == |left| || cmp(left[i], right[j]) < 0) ==>
      MergeSeq(cmp, left[i..], right[j..]) == [right[j]] + MergeSeq(cmp, left[i..], right[j + 1..])
  {
    if i < |left| {
      assert left[i..][1..] == left[i + 1..];
    }
    if j < |right| {
      assert right[j..][1..] == right[j + 1..];
    }
  }

  /** Once either input is exhausted, the merge is the other input. */
  lemma MergeSeqWithEmpty<T>(cmp: (T, T) -> int, left: seq<T>, right: seq<T>)
    requires left == [] || right == []
    ensures MergeSeq(cmp, left, right) == left + right
  {
    if left == [] {
      assert left + right == right;
    } else {
      assert left + right == left;
    }
  }

  /** Writing the next merged element at `k` extends the written part by that element; the
      positions after it still hold their original contents. */
  lemma WriteNext<T>(s: seq<T>, r: seq<T>, left: int, out: seq<T>, k: int, v: T)
    requires 0 <= left && k == left + |out| < |s|
    requires r == s[..left] + out + s[k..]
    ensures r[k := v] == s[..left] + (out + [v]) + s[k + 1..]
  {
  }

  /** The first loop of the source's `merge`: while both buffers have elements, write the
      larger head (the left one on ties) at the next position. */
  method MergeHeads<T>(s: seq<T>, left: int, lbuf: seq<T>, rbuf: seq<T>, cmp: (T, T) -> int)
    returns (r: seq<T>, i: int, j: int, ghost out: seq<T>)
    requires 0 <= left && left + |lbuf| + |rbuf| <= |s|
    ensures 0 <= i <= |lbuf| && 0 <= j <= |rbuf| && (i == |lbuf| || j == |rbuf|)
    ensures |out| == i + j && r == s[..left] + out + s[left + i + j..]
    ensures out + MergeSeq(cmp, lbuf[i..], rbuf[j..]) == MergeSeq(cmp, lbuf, rbuf)
  {
    r, out := s, [];
    i, j := 0, 0;
    var k := left;
    assert r == s[..left] + out + s[k..];
    while i < |lbuf| && j < |rbuf|
      invariant 0 <= i <= |lbuf| && 0 <= j <= |rbuf| && k == left + i + j == left + |out|
      invariant r == s[..left] + out + s[k..]
      invariant out + MergeSeq(cmp, lbuf[i..], rbuf[j..]) == MergeSeq(cmp, lbuf, rbuf)
    {
      MergeSeqStep(cmp, lbuf, rbuf, i, j);
      if cmp(lbuf[i], rbuf[j]) >= 0 {
        WriteNext(s, r, left, out, k, lbuf[i]);
        ConcatAssoc(out, [lbuf[i]], MergeSeq(cmp, lbuf[i + 1..], rbuf[j..]));
        r, out := r[k := lbuf[i]], out + [lbuf[i]];
        i := i + 1;
      } else {
        WriteNext(s, r, left, out, k, rbuf[j]);
        ConcatAssoc(out, [rbuf[j]], MergeSeq(cmp, lbuf[i..], rbuf[j + 1..]));
        r, out := r[k := rbuf[j]], out + [rbuf[j]];
        j := j + 1;
      }
      k := k + 1;
    }
  }

  /** The two trailing loops of the source's `merge`: copy the rest of one buffer into the
      positions after the written part. */
  method Drain<T>(ghost s: seq<T>, r0: seq<T>, left: int, ghost out0: seq<T>, at: int, buf: seq<T>, from: int)
    returns (r: seq<T>)
    requires 0 <= left && at == left + |out0| && 0 <= from <= |buf| && at + (|buf| - from) <= |s|
    requires r0 == s[..left] + out0 + s[at..]
    ensures r == s[..left] + (out0 + buf[from..]) + s[at + (|buf| - from)..]
  {
    r := r0;
    ghost var out := out0;
    var i, k := from, at;
    while i < |buf|
      invariant from <= i <= |buf| && k == left + |out| && out == out0 + buf[from..i]
      invariant r == s[..left] + out + s[k..]
    {
      WriteNext(s, r, left, out, k, buf[i]);
      assert buf[from..i + 1] == buf[from..i] + [buf[i]];
      r, out := r[k := buf[i]], out + [buf[i]];
      i, k := i + 1, k + 1;
    }
    assert buf[from..i] == buf[from..];
  }

  /** The `merge` of the source: copy `s[left..mid]` and `s[mid+1..right]` into two buffers and
      write them back into positions `left..right` in merged order, left buffer first on ties,
      then drain whichever buffer is left over. */
  method Merge<T>(s: seq<T>, left: int, mid: int, right: int, cmp: (T, T) -> int) returns (r: seq<T>)
    requires 0 <= left <= mid + 1 <= right + 1 <= |s|
    ensures r == s[..left] + MergeSeq(cmp, s[left..mid + 1], s[mid + 1..right + 1]) + s[right + 1..]
  {
    var leftArray, rightArray := s[left..mid + 1], s[mid + 1..right + 1];
    var i, j;
    ghost var out;
    r, i, j, out := MergeHeads(s, left, leftArray, rightArray, cmp);
    MergeSeqWithEmpty(cmp, leftArray[i..], rightArray[j..]);
    var k := left + i + j;
    r := Drain(s, r, left, out, k, leftArray, i);
    r := Drain(s, r, left, out + leftArray[i..], k + |leftArray| - i, rightArray, j);
    ConcatAssoc(out, leftArray[i..], rightArray[j..]);
  }

  /** Merge sort keeps the length, whatever the comparator. */
  lemma {:induction false} MergeSortSeqLength<T>(cmp: (T, T) -> int, xs: seq<T>)
    ensures |MergeSortSeq(cmp, xs)| == |xs|
    decreases |xs|
  {
    if |xs| >= 2 {
      var m := LeftHalf(|xs|);
      MergeSortSeqLength(cmp, xs[..m]);
      MergeSortSeqLength(cmp, xs[m..]);
      MergeSeqPermutation(cmp, MergeSortSeq(cmp, xs[..m]), MergeSortSeq(cmp, xs[m..]));
    }
  }

  /** After sorting the left half of `left..right` in place, the rest of `s` is untouched. */
  lemma AfterLeftHalf<T>(s: seq<T>, r: seq<T>, left: int, mid: int, right: int, a: seq<T>)
    requires 0 <= left <= mid < right < |s| && |a| == mid + 1 - left
    requires r == s[..left] + a + s[mid + 1..]
    ensures r[..mid + 1] == s[..left] + a
    ensures r[mid + 1..right + 1] == s[mid + 1..right + 1]
    ensures r[right + 1..] == s[right + 1..]
  {
  }

  /** After sorting both halves in place, the range holds the two sorted halves side by side. */
  lemma AfterRightHalf<T>(s: seq<T>, r: seq<T>, left: int, mid: int, right: int, a: seq<T>, b: seq<T>)
    requires 0 <= left <= mid < right < |s| && |a| == mid + 1 - left && |b| == right - mid
    requires r == (s[..left] + a) + b + s[right + 1..]
    ensures r[..left] == s[..left] && r[right + 1..] == s[right + 1..]
    ensures r[left..mid + 1] == a && r[mid + 1..right + 1] == b
  {
  }

  /** The three-part shape of a sequence cut at `left` and `right + 1`. */
  lemma AroundRange<T>(s: seq<T>, left: int, right: int, m: seq<T>)
    requires 0 <= left <= right + 1 <= |s|
    requires m == s[left..right + 1]
    ensures s == s[..left] + m + s[right + 1..]
  {
  }

  /** The source's `mergeSortHelper`: sort positions `left..right`, each half recursively, then
      merge them. Positions outside the range keep their contents. */
  method MergeSortRange<T>(s: seq<T>, left: int, right: int, cmp: (T, T) -> int) returns (r: seq<T>)
    requires 0 <= left <= right + 1 <= |s|
    ensures r == s[..left] + MergeSortSeq(cmp, s[left..right + 1]) + s[right + 1..]
    decreases right - left
  {
    r := s;
    if left < right {
      var mid := left + (right - left) / 2;
      ghost var a := MergeSortSeq(cmp, s[left..mid + 1]);
      ghost var b := MergeSortSeq(cmp, s[mid + 1..right + 1]);
      MergeSortSeqLength(cmp, s[left..mid + 1]);
      MergeSortSeqLength(cmp, s[mid + 1..right + 1]);
      r := MergeSortRange(s, left, mid, cmp);
      AfterLeftHalf(s, r, left, mid, right, a);
      r := MergeSortRange(r, mid + 1, right, cmp);
      AfterRightHalf(s, r, left, mid, right, a, b);
      r := Merge(r, left, mid, right, cmp);
      MergeSortSplit(cmp, s, left, mid, right);
    } else {
      AroundRange(s, left, right, s[left..right + 1]);
    }
  }

  /** The reference merge sort of `left..right` splits where the source's helper does. */
  lemma MergeSortSplit<T>(cmp: (T, T) -> int, s: seq<T>, left: int, mid: int, right: int)
    requires 0 <= left < right < |s| && mid == left + (right - left) / 2
    ensures MergeSortSeq(cmp, s[left..right + 1]) ==
      MergeSeq(cmp, MergeSortSeq(cmp, s[left..mid + 1]), MergeSortSeq(cmp, s[mid + 1..right + 1]))
  {
    var xs := s[left..right + 1];
    assert xs[..LeftHalf(|xs|)] == s[left..mid + 1];
    assert xs[LeftHalf(|xs|)..] == s[mid + 1..right + 1];
  }

  /** The source's `mergeSort` on non-null input: nothing to do below two elements, otherwise
      sort the whole array. Whatever the comparator, the result is the reference merge sort of the
      input and a permutation of it; under the comparator contract it is ordered from greatest to
      least and keeps equivalent elements in their input order. */
  method MergeSort<T(!new)>(a: seq<T>, cmp: (T, T) -> int) returns (r: seq<T>)
    ensures r == MergeSortSeq(cmp, a)
    ensures |r| == |a| && multiset(r) == multiset(a)
    ensures TotalPreorder(cmp) ==> Descending(cmp, r)
    ensures TotalPreorder(cmp) ==> Stable(cmp, a, r)
    ensures |a| < 2 ==> r == a
  {
    MergeSortSeqLength(cmp, a);
    MergeSortSeqPermutation(cmp, a);
    if TotalPreorder(cmp) {
      MergeSortSeqCorrect(cmp, a);
    }
    if |a| < 2 {
      return a;
    }
    r := MergeSortRange(a, 0, |a| - 1, cmp);
    assert a[0..|a|] == a;
  }
}

=== FILE: ordering.dfy ===
/**
 * The comparator contract shared by every sort, and the order predicates the sorts establish.
 *
 * A comparator is a three-way function: negative, zero or positive. Every sorting routine uses
 * `cmp(x, y) >= 0` ("x may stand before y") as its notion of order, so five of the six
 * algorithms leave the largest element under `cmp` first; heap sort leaves it last.
 */
module Ordering {

  /** The contract of a Java `Comparator`, as far as the sorts rely on it: the sign flips when the
      arguments are exchanged, and "compares at least" is transitive. Together these make
      `cmp(x, y) >= 0` a total preorder. */
  ghost predicate TotalPreorder<T(!new)>(cmp: (T, T) -> int) {
    && (forall x, y :: cmp(x, y) > 0 <==> cmp(y, x) < 0)
    && (forall x, y, z :: cmp(x, y) >= 0 && cmp(y, z) >= 0 ==> cmp(x, z) >= 0)
  }

  /** The usual three-way comparison of integers, with the -1, 0, 1 results of `Double.compare`;
      the comparator used by `Dispatch.IntegerOrientations`. */
  function IntCompare(x: int, y: int): int {
    if x < y then -1 else if x == y then 0 else 1
  }

  /** The integer comparison meets the comparator contract. */
  lemma IntCompareIsTotalPreorder()
    ensures TotalPreorder(IntCompare)
  {
  }

  /** Every element compares equal to itself under a valid comparator. */
  lemma Reflexive<T(!new)>(cmp: (T, T) -> int, x: T)
    requires TotalPreorder(cmp)
    ensures cmp(x, x) == 0
  {
    assert cmp(x, x) > 0 <==> cmp(x, x) < 0;
  }

  /** `x` and `y` are equivalent: neither is ordered strictly before the other. */
  ghost predicate Equiv<T>(cmp: (T, T) -> int, x: T, y: T) {
    cmp(x, y) == 0
  }

  /** Positions `lo..hi` of `s` are ordered largest-first: no earlier element compares below a later one. */
  ghost predicate DescendingBetween<T>(cmp: (T, T) -> int, s: seq<T>, lo: int, hi: int) {
    forall i, j :: 0 <= lo <= i < j < hi <= |s| ==> cmp(s[i], s[j]) >= 0
  }

  /** Positions `lo..hi` of `s` are ordered smallest-first. */
  ghost predicate AscendingBetween<T>(cmp: (T, T) -> int, s: seq<T>, lo: int, hi: int) {
    forall i, j :: 0 <= lo <= i < j < hi <= |s| ==> cmp(s[i], s[j]) <= 0
  }

  ghost predicate Descending<T>(cmp: (T, T) -> int, s: seq<T>) {
    DescendingBetween(cmp, s, 0, |s|)
  }

  ghost predicate Ascending<T>(cmp: (T, T) -> int, s: seq<T>) {
    AscendingBetween(cmp, s, 0, |s|)
  }

  /** The order the source's comments describe: no adjacent pair with `cmp(s[k], s[k+1]) < 0`. */
  ghost predicate AdjacentDescending<T>(cmp: (T, T) -> int, s: seq<T>) {
    forall k :: 0 <= k < |s| - 1 ==> cmp(s[k], s[k + 1]) >= 0
  }

  /** The adjacent order heap sort leaves: no adjacent pair with `cmp(s[k], s[k+1]) > 0`. */
  ghost predicate AdjacentAscending<T>(cmp: (T, T) -> int, s: seq<T>) {
    forall k :: 0 <= k < |s| - 1 ==> cmp(s[k], s[k + 1]) <= 0
  }

  /** Checking adjacent pairs suffices: under a valid comparator the adjacent order and the
      all-pairs order are the same thing. */
  lemma {:induction false} AdjacentDescendingIffDescending<T(!new)>(cmp: (T, T) -> int, s: seq<T>)
    requires TotalPreorder(cmp)
    ensures AdjacentDescending(cmp, s) <==> Descending(cmp, s)
  {
    if AdjacentDescending(cmp, s) {
      forall i, j | 0 <= i < j < |s|
        ensures cmp(s[i], s[j]) >= 0
      {
        AdjacentChainDescending(cmp, s, i, j);
      }
    }
  }

  lemma {:induction false} AdjacentChainDescending<T(!new)>(cmp: (T, T) -> int, s: seq<T>, i: int, j: int)
    requires TotalPreorder(cmp)
    requires AdjacentDescending(cmp, s)
    requires 0 <= i < j < |s|
    ensures cmp(s[i], s[j]) >= 0
    decreases j - i
  {
    if i + 1 < j {
      AdjacentChainDescending(cmp, s, i + 1, j);
    }
  }

  lemma {:induction false} AdjacentAscendingIffAscending<T(!new)>(cmp: (T, T) -> int, s: seq<T>)
    requires TotalPreorder(cmp)
    ensures AdjacentAscending(cmp, s) <==> Ascending(cmp, s)
  {
    if AdjacentAscending(cmp, s) {
      forall i, j | 0 <= i < j < |s|
        ensures cmp(s[i], s[j]) <= 0
      {
        AdjacentChainAscending(cmp, s, i, j);
      }
    }
  }

  lemma {:induction false} AdjacentChainAscending<T(!new)>(cmp: (T, T) -> int, s: seq<T>, i: int, j: int)
    requires TotalPreorder(cmp)
    requires AdjacentAscending(cmp, s)
    requires 0 <= i < j < |s|
    ensures cmp(s[i], s[j]) <= 0
    decreases j - i
  {
    if i + 1 < j {
      AdjacentChainAscending(cmp, s, i + 1, j);
      assert cmp(s[j], s[i + 1]) >= 0 && cmp(s[i + 1], s[i]) >= 0;
    }
  }

  /** The two orientations meet only on sequences whose elements are all equivalent: once `s`
      holds two elements that do not compare equal, it cannot be in both orders. */
  lemma DescendingAndAscendingMeansAllEquivalent<T(!new)>(cmp: (T, T) -> int, s: seq<T>, i: int, j: int)
    requires TotalPreorder(cmp)
    requires Descending(cmp, s) && Ascending(cmp, s)
    requires 0 <= i < |s| && 0 <= j < |s|
    ensures Equiv(cmp, s[i], s[j])
  {
    if i < j {
    } else if j < i {
    } else {
      Reflexive(cmp, s[i]);
    }
  }
}

=== FILE: permutation.dfy ===
/**
 * In-place rearrangement of an array, modelled on its contents: `swap`, the frame of a write
 * confined to a range, and the fact that a rearrangement keeps every bound its elements had.
 */
module Permutation {

  /** `r` differs from `s` at most inside positions `lo..hi`. */
  ghost predicate SameOutside<T>(s: seq<T>, r: seq<T>, lo: int, hi: int) {
    && |r| == |s|
    && (forall k :: 0 <= k < lo && k < |s| ==> r[k] == s[k])
    && (forall k :: hi <= k < |s| && 0 <= k ==> r[k] == s[k])
  }

  /** `r` is `s` with the elements of positions `lo..hi` rearranged and nothing else touched. */
  ghost predicate PermutedWithin<T>(s: seq<T>, r: seq<T>, lo: int, hi: int)
    requires 0 <= lo <= hi <= |s|
  {
    && SameOutside(s, r, lo, hi)
    && multiset(r[lo..hi]) == multiset(s[lo..hi])
  }

  /** Java's `swap(arr, i, j)`: the two elements change places. */
  function Swap<T>(s: seq<T>, i: int, j: int): (r: seq<T>)
    requires 0 <= i < |s| && 0 <= j < |s|
    ensures |r| == |s| && r[i] == s[j] && r[j] == s[i]
    ensures forall k :: 0 <= k < |s| && k != i && k != j ==> r[k] == s[k]
    ensures multiset(r) == multiset(s)
  {
    s[i := s[j]][j := s[i]]
  }

  /** Swapping twice puts everything back. */
  lemma SwapInvolution<T>(s: seq<T>, i: int, j: int)
    requires 0 <= i < |s| && 0 <= j < |s|
    ensures Swap(Swap(s, i, j), i, j) == s
  {
  }

  /** Splitting a sequence in three keeps its multiset. */
  lemma MultisetSplit<T>(s: seq<T>, lo: int, hi: int)
    requires 0 <= lo <= hi <= |s|
    ensures multiset(s) == multiset(s[..lo]) + multiset(s[lo..hi]) + multiset(s[hi..])
  {
    assert s == s[..lo] + s[lo..hi] + s[hi..];
  }

  /** With the outside fixed, rearranging the whole sequence means rearranging the range. */
  lemma WholeToRange<T>(s: seq<T>, r: seq<T>, lo: int, hi: int)
    requires 0 <= lo <= hi <= |s|
    requires SameOutside(s, r, lo, hi)
    ensures multiset(r) == multiset(s) <==> multiset(r[lo..hi]) == multiset(s[lo..hi])
  {
    MultisetSplit(s, lo, hi);
    MultisetSplit(r, lo, hi);
    assert r[..lo] == s[..lo];
    assert r[hi..] == s[hi..];
    var outside := multiset(s[..lo]) + multiset(s[hi..]);
    assert multiset(s) - outside == multiset(s[lo..hi]);
    assert multiset(r) - outside == multiset(r[lo..hi]);
  }

  /** Rearranging the range keeps the multiset of the whole sequence. */
  lemma RangeToWhole<T>(s: seq<T>, r: seq<T>, lo: int, hi: int)
    requires 0 <= lo <= hi <= |s|
    requires PermutedWithin(s, r, lo, hi)
    ensures multiset(r) == multiset(s)
  {
    WholeToRange(s, r, lo, hi);
  }

  /** A swap inside the range leaves everything outside it as it was. */
  lemma SwapKeepsOutside<T>(s: seq<T>, r: seq<T>, i: int, j: int, lo: int, hi: int)
    requires SameOutside(s, r, lo, hi)
    requires 0 <= lo <= i < hi <= |r| && lo <= j < hi
    ensures SameOutside(s, Swap(r, i, j), lo, hi)
  {
  }

  /** Rearranging a range twice, or a sub-range then the range, is a rearrangement of the range. */
  lemma PermutedWithinTrans<T>(s: seq<T>, t: seq<T>, r: seq<T>, lo: int, hi: int)
    requires 0 <= lo <= hi <= |s|
    requires PermutedWithin(s, t, lo, hi) && PermutedWithin(t, r, lo, hi)
    ensures PermutedWithin(s, r, lo, hi)
  {
  }

  lemma PermutedWithinWiden<T>(s: seq<T>, r: seq<T>, lo: int, hi: int, lo': int, hi': int)
    requires 0 <= lo' <= lo <= hi <= hi' <= |s|
    requires PermutedWithin(s, r, lo, hi)
    ensures PermutedWithin(s, r, lo', hi')
  {
    RangeToWhole(s, r, lo, hi);
    WholeToRange(s, r, lo', hi');
  }

  /** A property every element of `b` has, every element of a rearrangement `a` of `b` has. */
  lemma PermutationKeeps<T>(a: seq<T>, b: seq<T>, P: T -> bool)
    requires multiset(a) == multiset(b)
    requires forall k :: 0 <= k < |b| ==> P(b[k])
    ensures forall k :: 0 <= k < |a| ==> P(a[k])
  {
    forall k | 0 <= k < |a|
      ensures P(a[k])
    {
      assert a[k] in multiset(a);
      assert a[k] in b;
    }
  }

  /** The range form: a bound on every element of `s[lo..hi]` holds of every element of `r[lo..hi]`. */
  lemma RangeKeeps<T>(s: seq<T>, r: seq<T>, lo: int, hi: int, P: T -> bool)
    requires 0 <= lo <= hi <= |s|
    requires PermutedWithin(s, r, lo, hi)
    requires forall k :: lo <= k < hi ==> P(s[k])
    ensures forall k :: lo <= k < hi ==> P(r[k])
  {
    assert forall k :: 0 <= k < hi - lo ==> s[lo..hi][k] == s[lo + k];
    PermutationKeeps(r[lo..hi], s[lo..hi], P);
    forall k | lo <= k < hi
      ensures P(r[k])
    {
      assert r[lo..hi][k - lo] == r[k];
    }
  }
}

=== FILE: quick_sort.dfy ===
/**
 * Quick sort: Lomuto partition around the last element of the range, moving every element that
 * compares strictly above the pivot to the front, then recursion on both sides of the pivot.
 */
module QuickSort {
  import opened Ordering
  import opened Permutation

  /** The state of the partition sweep: positions `low..i` hold elements strictly above the pivot,
      positions `i+1..j-1` elements not above it, and the pivot is still at `high`. */
  ghost predicate Swept<T>(cmp: (T, T) -> int, pivot: T, r: seq<T>, low: int, high: int, i: int, j: int) {
    && 0 <= low && low - 1 <= i < j <= high < |r|
    && r[high] == pivot
    && (forall k :: low <= k <= i ==> cmp(r[k], pivot) > 0)
    && (forall k :: i < k < j ==> cmp(r[k], pivot) <= 0)
  }

  /** An element above the pivot is swapped to the end of the front block. */
  lemma SweepTake<T>(cmp: (T, T) -> int, pivot: T, r: seq<T>, low: int, high: int, i: int, j: int)
    requires Swept(cmp, pivot, r, low, high, i, j) && j < high
    requires cmp(r[j], pivot) > 0
    ensures Swept(cmp, pivot, Swap(r, i + 1, j), low, high, i + 1, j + 1)
  {
    var t := Swap(r, i + 1, j);
    FrontGrows(cmp, r, t, pivot, low, i, j);
    BackShifts(cmp, r, t, pivot, i, j);
  }

  /** Swapping an element above the pivot to just past the front block grows the block by one. */
  lemma FrontGrows<T>(cmp: (T, T) -> int, r: seq<T>, t: seq<T>, pivot: T, low: int, i: int, j: int)
    requires 0 <= low && low - 1 <= i < j < |r| && t == Swap(r, i + 1, j)
    requires forall k :: low <= k <= i ==> cmp(r[k], pivot) > 0
    requires cmp(r[j], pivot) > 0
    ensures forall k :: low <= k <= i + 1 ==> cmp(t[k], pivot) > 0
  {
    forall k | low <= k <= i + 1
      ensures cmp(t[k], pivot) > 0
    {
      if k <= i {
        assert t[k] == r[k];
      }
    }
  }

  /** The same swap moves the first element of the second block to its end. */
  lemma BackShifts<T>(cmp: (T, T) -> int, r: seq<T>, t: seq<T>, pivot: T, i: int, j: int)
    requires -1 <= i < j < |r| && t == Swap(r, i + 1, j)
    requires forall k :: i < k < j ==> cmp(r[k], pivot) <= 0
    ensures forall k :: i + 1 < k < j + 1 ==> cmp(t[k], pivot) <= 0
  {
    forall k | i + 1 < k < j + 1
      ensures cmp(t[k], pivot) <= 0
    {
      if k < j {
        assert t[k] == r[k];
      } else {
        assert t[k] == r[i + 1];
      }
    }
  }

  /** The sweep starts with both blocks empty. */
  lemma SweepStart<T>(cmp: (T, T) -> int, s: seq<T>, low: int, high: int)
    requires 0 <= low <= high < |s|
    ensures Swept(cmp, s[high], s, low, high, low - 1, low)
  {
  }

  /** An element not above the pivot stays where it is and joins the second block. */
  lemma SweepSkip<T>(cmp: (T, T) -> int, pivot: T, r: seq<T>, low: int, high: int, i: int, j: int)
    requires Swept(cmp, pivot, r, low, high, i, j) && j < high
    requires cmp(r[j], pivot) <= 0
    ensures Swept(cmp, pivot, r, low, high, i, j + 1)
  {
  }

  /** The pivot is swapped in right after the front block. */
  lemma PlacePivot<T>(cmp: (T, T) -> int, pivot: T, r: seq<T>, t: seq<T>, low: int, high: int, i: int)
    requires Swept(cmp, pivot, r, low, high, i, high)
    requires t == Swap(r, i + 1, high)
    ensures t[i + 1] == pivot
    ensures forall k :: low <= k < i + 1 ==> cmp(t[k], pivot) > 0
    ensures forall k :: i + 1 < k <= high ==> cmp(t[k], pivot) <= 0
  {
    forall k | low <= k < i + 1
      ensures cmp(t[k], pivot) > 0
    {
      assert t[k] == r[k];
    }
    forall k | i + 1 < k <= high
      ensures cmp(t[k], pivot) <= 0
    {
      if k < high {
        assert t[k] == r[k];
      } else {
        assert t[k] == r[i + 1];
      }
    }
  }

  /** Placing the pivot completes a rearrangement of `low..high`. */
  lemma PivotPlacedWithin<T>(s: seq<T>, r: seq<T>, t: seq<T>, low: int, high: int, i: int)
    requires 0 <= low && low - 1 <= i < high < |s|
    requires SameOutside(s, r, low, high + 1) && multiset(r) == multiset(s)
    requires t == Swap(r, i + 1, high)
    ensures PermutedWithin(s, t, low, high + 1)
  {
    SwapKeepsOutside(s, r, i + 1, high, low, high + 1);
    WholeToRange(s, t, low, high + 1);
  }

  /** The source's `partition`: with `pivot = s[high]`, sweep `j` over `low..high-1` and swap every
      element strictly above the pivot into the growing front block; finally swap the pivot in
      right after that block and return its position. */
  method Partition<T>(s: seq<T>, low: int, high: int, cmp: (T, T) -> int) returns (r: seq<T>, p: int)
    requires 0 <= low <= high < |s|
    ensures low <= p <= high
    ensures PermutedWithin(s, r, low, high + 1)
    ensures r[p] == s[high]
    ensures forall k :: low <= k < p ==> cmp(r[k], s[high]) > 0
    ensures forall k :: p < k <= high ==> cmp(r[k], s[high]) <= 0
  {
    var pivot := s[high];
    r := s;
    var i := low - 1;
    var j := low;
    SweepStart(cmp, s, low, high);
    while j < high
      invariant Swept(cmp, pivot, r, low, high, i, j)
      invariant SameOutside(s, r, low, high + 1) && multiset(r) == multiset(s)
      decreases high - j
    {
      r, i := SweepStep(s, r, pivot, low, high, i, j, cmp);
      j := j + 1;
    }
    var t := Swap(r, i + 1, high);
    PlacePivot(cmp, pivot, r, t, low, high, i);
    PivotPlacedWithin(s, r, t, low, high, i);
    r, p := t, i + 1;
  }

  /** One iteration of the sweep in `partition`: the element at `j` joins the front block by a
      swap when it is strictly above the pivot, and the second block otherwise. */
  method SweepStep<T>(ghost s: seq<T>, r: seq<T>, pivot: T, low: int, high: int, i: int, j: int, cmp: (T, T) -> int)
    returns (r': seq<T>, i': int)
    requires Swept(cmp, pivot, r, low, high, i, j) && j < high
    requires SameOutside(s, r, low, high + 1) && multiset(r) == multiset(s)
    ensures Swept(cmp, pivot, r', low, high, i', j + 1)
    ensures SameOutside(s, r', low, high + 1) && multiset(r') == multiset(s)
    ensures cmp(r[j], pivot) > 0 ==> i' == i + 1 && r' == Swap(r, i + 1, j)
    ensures cmp(r[j], pivot) <= 0 ==> i' == i && r' == r
  {
    if cmp(r[j], pivot) > 0 {
      SweepTake(cmp, pivot, r, low, high, i, j);
      SwapKeepsOutside(s, r, i + 1, j, low, high + 1);
      r', i' := Swap(r, i + 1, j), i + 1;
    } else {
      SweepSkip(cmp, pivot, r, low, high, i, j);
      r', i' := r, i;
    }
  }

  /** A range made of an ordered block strictly above a pivot, the pivot, and an ordered block
      not above it, is ordered as a whole. */
  lemma JoinAroundPivot<T(!new)>(cmp: (T, T) -> int, r: seq<T>, low: int, p: int, high: int)
    requires TotalPreorder(cmp)
    requires 0 <= low <= p <= high < |r|
    requires DescendingBetween(cmp, r, low, p) && DescendingBetween(cmp, r, p + 1, high + 1)
    requires forall k :: low <= k < p ==> cmp(r[k], r[p]) > 0
    requires forall k :: p < k <= high ==> cmp(r[k], r[p]) <= 0
    ensures DescendingBetween(cmp, r, low, high + 1)
  {
    forall a, b | low <= a < b <= high
      ensures cmp(r[a], r[b]) >= 0
    {
      if b > p {
        assert cmp(r[p], r[b]) >= 0;
      }
    }
  }

  /** Sorting the two sides in turn permutes the partitioned range. */
  lemma SidesPermuteRange<T>(s: seq<T>, r1: seq<T>, r2: seq<T>, r: seq<T>, low: int, p: int, high: int)
    requires 0 <= low <= p <= high < |s|
    requires PermutedWithin(s, r1, low, high + 1)
    requires PermutedWithin(r1, r2, low, p) && PermutedWithin(r2, r, p + 1, high + 1)
    ensures PermutedWithin(s, r, low, high + 1)
  {
    PermutedWithinWiden(r1, r2, low, p, low, high + 1);
    PermutedWithinWiden(r2, r, p + 1, high + 1, low, high + 1);
    PermutedWithinTrans(r1, r2, r, low, high + 1);
    PermutedWithinTrans(s, r1, r, low, high + 1);
  }

  /** Sorting the left side keeps it strictly above the pivot, and sorting the right side moves
      neither the pivot nor the left side. */
  lemma LeftSideAbove<T>(cmp: (T, T) -> int, r1: seq<T>, r2: seq<T>, r: seq<T>, low: int, p: int, high: int)
    requires 0 <= low <= p <= high < |r1|
    requires forall k :: low <= k < p ==> cmp(r1[k], r1[p]) > 0
    requires PermutedWithin(r1, r2, low, p)
    requires PermutedWithin(r2, r, p + 1, high + 1)
    ensures r[p] == r1[p]
    ensures forall k :: low <= k < p ==> cmp(r[k], r[p]) > 0
  {
    var pivot := r1[p];
    RangeKeeps(r1, r2, low, p, e => cmp(e, pivot) > 0);
    forall k | low <= k < p
      ensures cmp(r[k], r[p]) > 0
    {
      assert r[k] == r2[k];
    }
  }

  /** Sorting the right side keeps it not above the pivot. */
  lemma RightSideBelow<T>(cmp: (T, T) -> int, r1: seq<T>, r2: seq<T>, r: seq<T>, low: int, p: int, high: int)
    requires 0 <= low <= p <= high < |r1|
    requires forall k :: p < k <= high ==> cmp(r1[k], r1[p]) <= 0
    requires PermutedWithin(r1, r2, low, p)
    requires PermutedWithin(r2, r, p + 1, high + 1)
    ensures forall k :: p < k <= high ==> cmp(r[k], r[p]) <= 0
  {
    var pivot := r1[p];
    assert forall k :: p + 1 <= k < high + 1 ==> r2[k] == r1[k];
    RangeKeeps(r2, r, p + 1, high + 1, e => cmp(e, pivot) <= 0);
    assert r[p] == r2[p] == pivot;
  }

  /** Sorting the right side leaves the sorted left side as it is. */
  lemma LeftSideOrdered<T>(cmp: (T, T) -> int, r2: seq<T>, r: seq<T>, low: int, p: int, high: int)
    requires 0 <= low <= p <= high < |r2|
    requires DescendingBetween(cmp, r2, low, p)
    requires PermutedWithin(r2, r, p + 1, high + 1)
    ensures DescendingBetween(cmp, r, low, p)
  {
    forall a, b | low <= a < b < p
      ensures cmp(r[a], r[b]) >= 0
    {
      assert r[a] == r2[a] && r[b] == r2[b];
    }
  }

  /** The first pivot of a range ends at position `p`, with exactly the elements strictly above
      it in front and the rest behind. */
  ghost predicate PivotSettled<T>(cmp: (T, T) -> int, pivot: T, r: seq<T>, low: int, p: int, high: int) {
    && 0 <= low <= p <= high < |r|
    && r[p] == pivot
    && (forall k :: low <= k < p ==> cmp(r[k], pivot) > 0)
    && (forall k :: p < k <= high ==> cmp(r[k], pivot) <= 0)
  }

  /** The source's `quickSortHelper`: sort positions `low..high` (an empty range when
      `high == low - 1`), leaving every other position alone. Whatever the comparator, the range
      is rearranged and the old last element of the range stays where the first partition put
      it: behind every element strictly above it and in front of all the others, equivalent ones
      included. Under the comparator contract the range ends ordered. */
  method QuickSortRange<T(!new)>(s: seq<T>, low: int, high: int, cmp: (T, T) -> int) returns (r: seq<T>)
    requires 0 <= low <= high + 1 <= |s|
    ensures PermutedWithin(s, r, low, high + 1)
    ensures low < high ==> exists p :: PivotSettled(cmp, s[high], r, low, p, high)
    ensures TotalPreorder(cmp) ==> DescendingBetween(cmp, r, low, high + 1)
    decreases high + 1 - low
  {
    if low < high {
      var r1, p := Partition(s, low, high, cmp);
      var r2 := QuickSortRange(r1, low, p - 1, cmp);
      r := QuickSortRange(r2, p + 1, high, cmp);
      SidesPermuteRange(s, r1, r2, r, low, p, high);
      LeftSideAbove(cmp, r1, r2, r, low, p, high);
      RightSideBelow(cmp, r1, r2, r, low, p, high);
      assert PivotSettled(cmp, s[high], r, low, p, high);
      if TotalPreorder(cmp) {
        LeftSideOrdered(cmp, r2, r, low, p, high);
        JoinAroundPivot(cmp, r, low, p, high);
      }
    } else {
      r := s;
    }
  }

  /** The last element of `a` is settled at `p` in `r`, as the first pivot of the whole array. */
  ghost predicate LastSettled<T>(cmp: (T, T) -> int, a: seq<T>, r: seq<T>, p: int) {
    |a| > 0 && PivotSettled(cmp, a[|a| - 1], r, 0, p, |a| - 1)
  }

  /** The source's `quickSort` on non-null input: whatever the comparator, the result is a
      permutation of the input in which the input's last element follows exactly the elements
      strictly above it. Under the comparator contract it is ordered from greatest to least. */
  method QuickSort<T(!new)>(a: seq<T>, cmp: (T, T) -> int) returns (r: seq<T>)
    ensures multiset(r) == multiset(a)
    ensures |a| >= 2 ==> exists p :: LastSettled(cmp, a, r, p)
    ensures TotalPreorder(cmp) ==> Descending(cmp, r)
  {
    r := QuickSortRange(a, 0, |a| - 1, cmp);
    RangeToWhole(a, r, 0, |a|);
    if |a| >= 2 {
      ghost var p :| PivotSettled(cmp, a[|a| - 1], r, 0, p, |a| - 1);
      assert LastSettled(cmp, a, r, p);
    }
  }
}

=== FILE: results.dfy ===
/** Option and Result values, standing in for Java's `null` and thrown exceptions. */
module Results {

  /** A value that may be absent; `None` models a Java `null` reference. */
  datatype Option<+T> = None | Some(value: T)

  /** The outcome of an operation that may throw: `Failure` carries the exception's cause. */
  datatype Result<+R, +E> = Success(value: R) | Failure(error: E) {
    predicate IsFailure() {
      Failure?
    }

    function PropagateFailure<U>(): Result<U, E>
      requires Failure?
    {
      Failure(error)
    }

    function Extract(): R
      requires Success?
    {
      value
    }
  }
}

=== FILE: shape_count.dfy ===
/**
 * The shape count on the first line of a data file: `Integer.parseInt` followed by the
 * rejection of negative counts in `parseShapeCount`.
 */
module ShapeCount {
  import opened Results
  import opened Int32
  import Text

  predicate IsDigit(c: char) {
    '0' <= c <= '9'
  }

  predicate AllDigits(s: string) {
    forall i :: 0 <= i < |s| ==> IsDigit(s[i])
  }

  /** The value of a string of decimal digits, most significant first. */
  function DigitsValue(s: string): nat
    requires AllDigits(s)
    decreases |s|
  {
    if |s| == 0 then 0 else DigitsValue(s[..|s| - 1]) * 10 + (s[|s| - 1] as int - '0' as int)
  }

  /** `Integer.parseInt` in base 10: an optional `-` or `+`, then at least one digit, and a value
      that fits in 32 bits; anything else throws `NumberFormatException` (`None`). */
  function ParseInt(s: string): (r: Option<int>)
    ensures r.Some? ==> MinInt32 <= r.value <= MaxInt32
  {
    if |s| == 0 then None
    else
      var signed := s[0] == '-' || s[0] == '+';
      var digits := if signed then s[1..] else s;
      if |digits| == 0 || !AllDigits(digits) then None
      else
        var magnitude: int := DigitsValue(digits);
        var v := if s[0] == '-' then -magnitude else magnitude;
        if MinInt32 <= v <= MaxInt32 then Some(v) else None
  }

  /** The decimal digit for `d`. */
  function DigitChar(d: int): char
    requires 0 <= d < 10
  {
    ('0' as int + d) as char
  }

  /** `Integer.toString` of a non-negative number: its shortest decimal digits. */
  function DecimalString(n: nat): string
    decreases n
  {
    if n < 10 then [DigitChar(n)] else DecimalString(n / 10) + [DigitChar(n % 10)]
  }

  /** The rendering of a number is a non-empty string of digits whose value is the number. */
  lemma {:induction false} DecimalStringValue(n: nat)
    ensures |DecimalString(n)| > 0 && AllDigits(DecimalString(n))
    ensures DigitsValue(DecimalString(n)) == n
    decreases n
  {
    var s := DecimalString(n);
    if n >= 10 {
      DecimalStringValue(n / 10);
      assert s[..|s| - 1] == DecimalString(n / 10);
    }
  }

  /** `Integer.toString` of any 32-bit value. */
  function IntString(n: int): string {
    if n < 0 then "-" + DecimalString(-n) else DecimalString(n)
  }

  /** Parsing undoes rendering on every 32-bit value. */
  lemma ParseIntRoundTrip(n: int)
    requires MinInt32 <= n <= MaxInt32
    ensures ParseInt(IntString(n)) == Some(n)
  {
    if n < 0 {
      DecimalStringValue(-n);
      assert IntString(n)[1..] == DecimalString(-n);
    } else {
      DecimalStringValue(n);
    }
  }

  /** `parseShapeCount`: the parsed number, or 0 when it is negative or not a number. */
  function ParseShapeCount(line: string): (r: int)
    ensures 0 <= r <= MaxInt32
    ensures r > 0 ==> ParseInt(line) == Some(r)
    ensures ParseInt(line).Some? && ParseInt(line).value >= 0 ==> r == ParseInt(line).value
    ensures ParseInt(line).None? || ParseInt(line).value < 0 ==> r == 0
  {
    match ParseInt(line)
    case None => 0
    case Some(count) => if count < 0 then 0 else count
  }

  /** Every count from 0 to the largest `int` is read back from its rendering; a negative count
      reads as 0. */
  lemma ShapeCountRoundTrip(n: int)
    requires MinInt32 <= n <= MaxInt32
    ensures ParseShapeCount(IntString(n)) == if n < 0 then 0 else n
  {
    ParseIntRoundTrip(n);
  }

  /** A line holding anything other than digits after an optional sign counts zero shapes. */
  lemma NonNumericCountIsZero(line: string, k: int)
    requires 0 < k < |line| && !IsDigit(line[k])
    ensures ParseShapeCount(line) == 0
  {
    if |line| > 0 && (line[0] == '-' || line[0] == '+') {
      assert line[1..][k - 1] == line[k];
    }
  }

  /** A count beyond the largest `int` overflows and counts zero shapes. */
  lemma OverflowingCountIsZero(n: int)
    requires n > MaxInt32
    ensures ParseShapeCount(DecimalString(n)) == 0
  {
    DecimalStringValue(n);
  }

  /** A leading `+` and leading zeros are accepted. */
  lemma PlusAndZerosAccepted()
    ensures ParseShapeCount("+007") == 7
  {
    assert "+007"[1..] == "007";
    assert "007"[..2] == "00" && "00"[..1] == "0" && "0"[..0] == "";
    assert AllDigits("007");
    assert DigitsValue("007") == 7;
  }

  /** The shape count `loadShapesFromFile` reads: `parseShapeCount` of the first line with its
      surrounding blanks trimmed. */
  function FirstLineCount(line: string): (r: int)
    ensures 0 <= r <= MaxInt32
  {
    ParseShapeCount(Text.Trim(line))
  }

  /** Blanks around the count on the first line do not change it: every count from 0 to the
      largest `int`, however padded, is read back. */
  lemma PaddedCountIsRead(pre: string, n: int, post: string)
    requires Text.IsBlank(pre) && Text.IsBlank(post)
    requires 0 <= n <= MaxInt32
    ensures FirstLineCount(pre + DecimalString(n) + post) == n
  {
    DecimalStringValue(n);
    var d := DecimalString(n);
    assert d[0] > ' ' && d[|d| - 1] > ' ' by {
      assert IsDigit(d[0]) && IsDigit(d[|d| - 1]);
    }
    Text.TrimPadded(pre, d, post);
    ShapeCountRoundTrip(n);
  }
}

=== FILE: simple_sorts.dfy ===
/**
 * The three quadratic sorts: bubble, selection and insertion. Each takes the array's contents and
 * returns the contents it leaves behind; all three order the result largest-first under `cmp`.
 */
module SimpleSorts {
  import opened Ordering
  import opened Permutation
  import opened Stability

  /** Every element before position `m` compares at least every element of positions `m..n`. */
  ghost predicate SplitAt<T>(cmp: (T, T) -> int, s: seq<T>, m: int, n: int) {
    forall x, y :: 0 <= x < m <= y < n <= |s| ==> cmp(s[x], s[y]) >= 0
  }

  /** Rearranging the prefix `0..m` keeps both the split at `m` and the order of `m..n`. */
  lemma PrefixPermutationKeepsSplit<T>(cmp: (T, T) -> int, s: seq<T>, r: seq<T>, m: int, n: int)
    requires 0 <= m <= n <= |s|
    requires PermutedWithin(s, r, 0, m)
    requires SplitAt(cmp, s, m, n) && DescendingBetween(cmp, s, m, n)
    ensures SplitAt(cmp, r, m, n) && DescendingBetween(cmp, r, m, n)
  {
    forall y | m <= y < n
      ensures forall x :: 0 <= x < m ==> cmp(r[x], r[y]) >= 0
    {
      RangeKeeps(s, r, 0, m, e => cmp(e, s[y]) >= 0);
    }
  }

  /** Moving the split one place left, when the element there bounds the prefix from below. */
  lemma ExtendSplit<T>(cmp: (T, T) -> int, s: seq<T>, m: int, n: int)
    requires 1 <= m <= n <= |s|
    requires SplitAt(cmp, s, m, n) && DescendingBetween(cmp, s, m, n)
    requires forall k :: 0 <= k < m ==> cmp(s[k], s[m - 1]) >= 0
    ensures SplitAt(cmp, s, m - 1, n) && DescendingBetween(cmp, s, m - 1, n)
  {
  }

  /** An ordered prefix, an ordered suffix and a split between them make an ordered whole. */
  lemma JoinAt<T>(cmp: (T, T) -> int, s: seq<T>, m: int)
    requires 0 <= m <= |s|
    requires DescendingBetween(cmp, s, 0, m) && DescendingBetween(cmp, s, m, |s|)
    requires SplitAt(cmp, s, m, |s|)
    ensures Descending(cmp, s)
  {
  }

  /** One pass of bubble sort over positions `0..m` (the inner loop of `bubbleSort`): it only
      exchanges neighbours, so it rearranges the prefix whatever the comparator, and a pass that
      exchanges nothing returns the prefix untouched. Under the comparator contract it sinks a
      smallest element of the prefix to position `m - 1`, and a pass without an exchange found the
      prefix already in order. */
  method BubblePass<T(!new)>(s: seq<T>, m: int, cmp: (T, T) -> int) returns (r: seq<T>, swapped: bool)
    requires 1 <= m <= |s|
    ensures PermutedWithin(s, r, 0, m)
    ensures !swapped ==> r == s
    ensures TotalPreorder(cmp) ==> Stable(cmp, s, r)
    ensures TotalPreorder(cmp) ==> forall k :: 0 <= k < m ==> cmp(r[k], r[m - 1]) >= 0
    ensures TotalPreorder(cmp) && !swapped ==> DescendingBetween(cmp, r, 0, m)
  {
    r := s;
    swapped := false;
    var j := 0;
    while j < m - 1
      invariant 0 <= j <= m - 1
      invariant SameOutside(s, r, 0, m) && multiset(r) == multiset(s)
      invariant !swapped ==> r == s
      invariant TotalPreorder(cmp) ==> Stable(cmp, s, r)
      invariant TotalPreorder(cmp) ==> forall k :: 0 <= k <= j ==> cmp(r[k], r[j]) >= 0
      invariant TotalPreorder(cmp) && !swapped ==> DescendingBetween(cmp, r, 0, j + 1)
    {
      r, swapped := BubbleStep(s, r, m, j, swapped, cmp);
      j := j + 1;
    }
    WholeToRange(s, r, 0, m);
  }

  /** One comparison of the pass: exchange `r[j]` and `r[j + 1]` when the left one compares
      strictly below the right one. */
  method BubbleStep<T(!new)>(ghost s: seq<T>, r: seq<T>, m: int, j: int, swapped: bool, cmp: (T, T) -> int)
    returns (r': seq<T>, swapped': bool)
    requires 0 <= j < m - 1 && m <= |s|
    requires SameOutside(s, r, 0, m) && multiset(r) == multiset(s)
    requires !swapped ==> r == s
    requires TotalPreorder(cmp) ==> Stable(cmp, s, r)
    requires TotalPreorder(cmp) ==> forall k :: 0 <= k <= j ==> cmp(r[k], r[j]) >= 0
    requires TotalPreorder(cmp) && !swapped ==> DescendingBetween(cmp, r, 0, j + 1)
    ensures SameOutside(s, r', 0, m) && multiset(r') == multiset(s)
    ensures !swapped' ==> r' == s
    ensures TotalPreorder(cmp) ==> Stable(cmp, s, r')
    ensures TotalPreorder(cmp) ==> forall k :: 0 <= k <= j + 1 ==> cmp(r'[k], r'[j + 1]) >= 0
    ensures TotalPreorder(cmp) && !swapped' ==> DescendingBetween(cmp, r', 0, j + 2)
  {
    if cmp(r[j], r[j + 1]) < 0 {
      SwapKeepsOutside(s, r, j, j + 1, 0, m);
      if TotalPreorder(cmp) {
        BubbleExchange(cmp, s, r, Swap(r, j, j + 1), m, j);
      }
      r', swapped' := Swap(r, j, j + 1), true;
    } else {
      if TotalPreorder(cmp) {
        BubbleKeep(cmp, r, j);
      }
      r', swapped' := r, swapped;
    }
  }

  /** An exchange of a strictly smaller element with its right neighbour keeps the pass a stable
      rearrangement of the prefix, and carries the smallest element seen so far one step on. */
  lemma BubbleExchange<T(!new)>(cmp: (T, T) -> int, s: seq<T>, r: seq<T>, t: seq<T>, m: int, j: int)
    requires TotalPreorder(cmp)
    requires 0 <= j < m - 1 && m <= |s|
    requires |r| == |s| && Stable(cmp, s, r)
    requires t == Swap(r, j, j + 1)
    requires forall k :: 0 <= k <= j ==> cmp(r[k], r[j]) >= 0
    requires cmp(r[j], r[j + 1]) < 0
    ensures Stable(cmp, s, t)
    ensures forall k :: 0 <= k <= j + 1 ==> cmp(t[k], t[j + 1]) >= 0
  {
    SwapUnequalNeighbours(cmp, r, j);
    StableTrans(cmp, s, r, t);
    forall k | 0 <= k <= j + 1
      ensures cmp(t[k], t[j + 1]) >= 0
    {
      if k < j {
        assert t[k] == r[k];
      } else if k == j {
        assert cmp(r[j], r[j + 1]) < 0;
      }
    }
  }

  /** Without an exchange, the neighbour on the right is not above the element before it, so it
      is bounded by every element seen so far. */
  lemma BubbleKeep<T(!new)>(cmp: (T, T) -> int, r: seq<T>, j: int)
    requires TotalPreorder(cmp)
    requires 0 <= j < |r| - 1
    requires forall k :: 0 <= k <= j ==> cmp(r[k], r[j]) >= 0
    requires cmp(r[j], r[j + 1]) >= 0
    ensures forall k :: 0 <= k <= j + 1 ==> cmp(r[k], r[j + 1]) >= 0
    ensures DescendingBetween(cmp, r, 0, j + 1) ==> DescendingBetween(cmp, r, 0, j + 2)
  {
    Reflexive(cmp, r[j + 1]);
  }

  /** Bubble sort: passes of adjacent exchanges, each pass one shorter, stopping after a pass
      without an exchange. The result rearranges the input whatever the comparator; under the
      comparator contract it is ordered, and stable because exchanges happen only on a strict
      comparison. */
  method BubbleSort<T(!new)>(a: seq<T>, cmp: (T, T) -> int) returns (r: seq<T>)
    ensures |r| == |a| && multiset(r) == multiset(a)
    ensures TotalPreorder(cmp) ==> Descending(cmp, r)
    ensures TotalPreorder(cmp) ==> Stable(cmp, a, r)
  {
    r := a;
    var n := |r|;
    var i := 0;
    while i < n - 1
      invariant 0 <= i <= n && |r| == n && multiset(r) == multiset(a)
      invariant TotalPreorder(cmp) ==> Stable(cmp, a, r)
      invariant TotalPreorder(cmp) ==> DescendingBetween(cmp, r, n - i, n) && SplitAt(cmp, r, n - i, n)
    {
      var r', swapped := BubblePass(r, n - i, cmp);
      RangeToWhole(r, r', 0, n - i);
      if TotalPreorder(cmp) {
        PrefixPermutationKeepsSplit(cmp, r, r', n - i, n);
        StableTrans(cmp, a, r, r');
      }
      r := r';
      if !swapped {
        // no exchange in this pass: the prefix, and so the whole array, is in order
        if TotalPreorder(cmp) {
          JoinAt(cmp, r, n - i);
        }
        break;
      }
      if TotalPreorder(cmp) {
        ExtendSplit(cmp, r, n - i, n);
      }
      i := i + 1;
    }
    if TotalPreorder(cmp) && n - i > 0 {
      JoinAt(cmp, r, n - i);
    }
  }

  /** The inner loop of `selectionSort`: the index of the first element of `s[i..]` that no
      later element exceeds. The update uses a strict `> 0`, so ties keep the earlier index. */
  method SelectMax<T(!new)>(s: seq<T>, i: int, cmp: (T, T) -> int) returns (m: int)
    requires 0 <= i < |s|
    ensures i <= m < |s|
    ensures TotalPreorder(cmp) ==> forall k :: i <= k < |s| ==> cmp(s[m], s[k]) >= 0
    ensures TotalPreorder(cmp) ==> forall k :: i <= k < m ==> cmp(s[m], s[k]) > 0
  {
    m := i;
    var j := i + 1;
    if TotalPreorder(cmp) {
      Reflexive(cmp, s[i]);
    }
    while j < |s|
      invariant i <= m < j <= |s|
      invariant TotalPreorder(cmp) ==> forall k :: i <= k < j ==> cmp(s[m], s[k]) >= 0
      invariant TotalPreorder(cmp) ==> forall k :: i <= k < m ==> cmp(s[m], s[k]) > 0
    {
      if cmp(s[j], s[m]) > 0 {
        m := j;
      }
      j := j + 1;
    }
  }

  /** Selection sort: for each position in turn, swap a largest remaining element into it. The
      result rearranges the input whatever the comparator, and is ordered under the comparator
      contract. Not stable: the swap can carry an element past others equivalent to it. An input
      already in order is left as it is: the first largest remaining element is always the one
      in place. */
  method SelectionSort<T(!new)>(a: seq<T>, cmp: (T, T) -> int) returns (r: seq<T>)
    ensures |r| == |a| && multiset(r) == multiset(a)
    ensures TotalPreorder(cmp) ==> Descending(cmp, r)
    ensures TotalPreorder(cmp) && Descending(cmp, a) ==> r == a
  {
    r := a;
    var n := |r|;
    var i := 0;
    while i < n - 1
      invariant |r| == n && multiset(r) == multiset(a)
      invariant 0 <= i <= n
      invariant TotalPreorder(cmp) ==> DescendingBetween(cmp, r, 0, i) && SplitAt(cmp, r, i, n)
      invariant TotalPreorder(cmp) && Descending(cmp, a) ==> r == a
    {
      r := SelectStep(a, r, i, cmp);
      i := i + 1;
    }
    if TotalPreorder(cmp) {
      JoinAt(cmp, r, i);
    }
  }

  /** One round of the outer loop of `selectionSort`: swap a largest element of `r[i..]` into
      position `i`. */
  method SelectStep<T(!new)>(ghost a: seq<T>, r: seq<T>, i: int, cmp: (T, T) -> int) returns (r': seq<T>)
    requires 0 <= i < |r|
    requires TotalPreorder(cmp) ==> DescendingBetween(cmp, r, 0, i) && SplitAt(cmp, r, i, |r|)
    requires TotalPreorder(cmp) && Descending(cmp, a) ==> r == a
    ensures |r'| == |r| && multiset(r') == multiset(r)
    ensures TotalPreorder(cmp) ==> DescendingBetween(cmp, r', 0, i + 1) && SplitAt(cmp, r', i + 1, |r'|)
    ensures TotalPreorder(cmp) && Descending(cmp, a) ==> r' == a
  {
    var m := SelectMax(r, i, cmp);
    if TotalPreorder(cmp) {
      SelectedSwapOrders(cmp, r, i, m);
      if Descending(cmp, a) {
        InPlaceMaxIsFirst(cmp, r, i, m);
      }
    }
    r' := Swap(r, m, i);
  }

  /** Swapping a largest element of `r[i..]` into position `i` extends the ordered prefix by one
      and keeps it above the rest. */
  lemma SelectedSwapOrders<T>(cmp: (T, T) -> int, r: seq<T>, i: int, m: int)
    requires 0 <= i <= m < |r|
    requires DescendingBetween(cmp, r, 0, i) && SplitAt(cmp, r, i, |r|)
    requires forall k :: i <= k < |r| ==> cmp(r[m], r[k]) >= 0
    ensures DescendingBetween(cmp, Swap(r, m, i), 0, i + 1) && SplitAt(cmp, Swap(r, m, i), i + 1, |r|)
  {
    var t := Swap(r, m, i);
    forall x, y | 0 <= x < y < i + 1
      ensures cmp(t[x], t[y]) >= 0
    {
      assert t[x] == r[x];
    }
    forall x, y | 0 <= x < i + 1 <= y < |r|
      ensures cmp(t[x], t[y]) >= 0
    {
      if x < i {
        assert t[x] == r[x];
      }
    }
  }

  /** In an ordered array the first largest element of a suffix is its first element, so the swap
      that follows exchanges it with itself. */
  lemma InPlaceMaxIsFirst<T(!new)>(cmp: (T, T) -> int, r: seq<T>, i: int, m: int)
    requires TotalPreorder(cmp) && Descending(cmp, r)
    requires 0 <= i <= m < |r|
    requires forall k :: i <= k < m ==> cmp(r[m], r[k]) > 0
    ensures m == i && Swap(r, m, i) == r
  {
    LaterNotAbove(cmp, r, i, m);
    assert Swap(r, i, i) == r;
  }

  /** In an ordered array no element compares strictly above one at or before it. */
  lemma LaterNotAbove<T(!new)>(cmp: (T, T) -> int, r: seq<T>, i: int, m: int)
    requires TotalPreorder(cmp) && Descending(cmp, r)
    requires 0 <= i <= m < |r|
    ensures cmp(r[m], r[i]) <= 0
  {
    if i < m {
      assert cmp(r[i], r[m]) >= 0;
    } else {
      Reflexive(cmp, r[i]);
    }
  }

  /** One step of `insertionSort`: take `key = s[i]`, shift the elements before it that compare
      strictly below it one place right, and put `key` into the gap at `pos`. */
  method Insert<T>(s: seq<T>, i: int, cmp: (T, T) -> int) returns (r: seq<T>, pos: int)
    requires 0 <= i < |s|
    ensures 0 <= pos <= i
    ensures r == s[..pos] + [s[i]] + s[pos..i] + s[i + 1..]
    ensures forall k :: pos <= k < i ==> cmp(s[k], s[i]) < 0
    ensures pos > 0 ==> cmp(s[pos - 1], s[i]) >= 0
  {
    var key := s[i];
    r := s;
    var j := i - 1;
    while j >= 0 && cmp(r[j], key) < 0
      invariant -1 <= j <= i - 1 && |r| == |s|
      invariant forall k :: 0 <= k <= j ==> r[k] == s[k]
      invariant forall k :: j + 2 <= k <= i ==> r[k] == s[k - 1]
      invariant forall k :: i < k < |s| ==> r[k] == s[k]
      invariant forall k :: j + 1 <= k < i ==> cmp(s[k], key) < 0
    {
      r := r[j + 1 := r[j]];
      j := j - 1;
    }
    r := r[j + 1 := key];
    pos := j + 1;
    ConcatFromInsertedAt(s, r, i, pos);
  }

  /** The index reading of an insertion gives its slice reading. */
  lemma ConcatFromInsertedAt<T>(s: seq<T>, r: seq<T>, i: int, pos: int)
    requires InsertedAt(s, r, i, pos)
    ensures r == s[..pos] + [s[i]] + s[pos..i] + s[i + 1..]
  {
    var c := s[..pos] + [s[i]] + s[pos..i] + s[i + 1..];
    assert |c| == |r|;
    forall k | 0 <= k < |r|
      ensures r[k] == c[k]
    {
      if k < pos {
      } else if k == pos {
      } else if k <= i {
        assert c[k] == s[pos..i][k - pos - 1];
      } else {
        assert c[k] == s[i + 1..][k - i - 1];
      }
    }
  }

  /** The index reading of `Insert`'s result: positions before `pos` and after `i` are kept,
      the key sits at `pos`, and the elements in between moved one place right. */
  ghost predicate InsertedAt<T>(s: seq<T>, r: seq<T>, i: int, pos: int) {
    && 0 <= pos <= i < |s| && |r| == |s|
    && (forall k :: 0 <= k < pos ==> r[k] == s[k])
    && r[pos] == s[i]
    && (forall k :: pos < k <= i ==> r[k] == s[k - 1])
    && (forall k :: i < k < |s| ==> r[k] == s[k])
  }

  lemma InsertedAtFromConcat<T>(s: seq<T>, r: seq<T>, i: int, pos: int)
    requires 0 <= pos <= i < |s|
    requires r == s[..pos] + [s[i]] + s[pos..i] + s[i + 1..]
    ensures InsertedAt(s, r, i, pos)
  {
  }

  /** Inserting `s[i]` as `Insert` does extends the ordered prefix by one. */
  lemma InsertKeepsOrder<T(!new)>(cmp: (T, T) -> int, s: seq<T>, r: seq<T>, i: int, pos: int)
    requires TotalPreorder(cmp)
    requires InsertedAt(s, r, i, pos)
    requires DescendingBetween(cmp, s, 0, i)
    requires forall k :: pos <= k < i ==> cmp(s[k], s[i]) < 0
    requires pos > 0 ==> cmp(s[pos - 1], s[i]) >= 0
    ensures DescendingBetween(cmp, r, 0, i + 1)
  {
    forall a, b | 0 <= a < b < i + 1
      ensures cmp(r[a], r[b]) >= 0
    {
      if b < pos {
        assert cmp(s[a], s[b]) >= 0;
      } else if b == pos {
        if a < pos - 1 {
          assert cmp(s[a], s[pos - 1]) >= 0;
        }
      } else if a < pos {
        assert cmp(s[a], s[b - 1]) >= 0;
      } else if a == pos {
        assert cmp(s[b - 1], s[i]) < 0;
      } else {
        assert cmp(s[a - 1], s[b - 1]) >= 0;
      }
    }
  }

  /** Moving `key` in front of elements that all compare strictly below it changes no class's
      order: none of them is equivalent to `key`. */
  lemma KeyPastSmaller<T(!new)>(cmp: (T, T) -> int, m: seq<T>, key: T, x: T)
    requires TotalPreorder(cmp)
    requires forall k :: 0 <= k < |m| ==> cmp(m[k], key) < 0
    ensures Filter(cmp, [key] + m, x) == Filter(cmp, m + [key], x)
  {
    FilterConcat(cmp, m, [key], x);
    FilterConcat(cmp, [key], m, x);
    if cmp(key, x) == 0 {
      forall k | 0 <= k < |m|
        ensures cmp(m[k], x) != 0
      {
        StrictNotBothEquivalent(cmp, m[k], key, x);
      }
      FilterNone(cmp, m, x);
    }
  }

  lemma MoveKeyForward<T(!new)>(cmp: (T, T) -> int, p: seq<T>, m: seq<T>, key: T, q: seq<T>, x: T)
    requires TotalPreorder(cmp)
    requires forall k :: 0 <= k < |m| ==> cmp(m[k], key) < 0
    ensures Filter(cmp, p + ([key] + m) + q, x) == Filter(cmp, p + (m + [key]) + q, x)
  {
    FilterThree(cmp, p, m + [key], q, x);
    FilterThree(cmp, p, [key] + m, q, x);
    KeyPastSmaller(cmp, m, key, x);
  }

  /** The elements `Insert` jumps over compare strictly below the key: insertion is stable. */
  lemma InsertIsStable<T(!new)>(cmp: (T, T) -> int, s: seq<T>, r: seq<T>, i: int, pos: int)
    requires TotalPreorder(cmp)
    requires 0 <= pos <= i < |s|
    requires r == s[..pos] + [s[i]] + s[pos..i] + s[i + 1..]
    requires forall k :: pos <= k < i ==> cmp(s[k], s[i]) < 0
    ensures Stable(cmp, s, r)
  {
    var p, m, key, q := s[..pos], s[pos..i], s[i], s[i + 1..];
    assert s == p + (m + [key]) + q;
    assert r == p + ([key] + m) + q;
    assert forall k :: 0 <= k < |m| ==> m[k] == s[pos + k];
    forall x
      ensures Filter(cmp, r, x) == Filter(cmp, s, x)
    {
      MoveKeyForward(cmp, p, m, key, q, x);
    }
  }

  /** `Insert` only moves the key: the result rearranges the array. */
  lemma InsertPermutes<T>(s: seq<T>, r: seq<T>, i: int, pos: int)
    requires 0 <= pos <= i < |s|
    requires r == s[..pos] + [s[i]] + s[pos..i] + s[i + 1..]
    ensures |r| == |s| && multiset(r) == multiset(s)
  {
    assert s == s[..pos] + s[pos..i] + [s[i]] + s[i + 1..] by {
      assert s[..i] == s[..pos] + s[pos..i];
      assert s == s[..i] + [s[i]] + s[i + 1..];
    }
  }

  /** Insertion sort: grow an ordered prefix by inserting each next element behind the last
      element that compares at least it. The result rearranges the input whatever the
      comparator; under the comparator contract it is ordered, and stable because shifting stops
      on a tie. */
  method InsertionSort<T(!new)>(a: seq<T>, cmp: (T, T) -> int) returns (r: seq<T>)
    ensures |r| == |a| && multiset(r) == multiset(a)
    ensures TotalPreorder(cmp) ==> Descending(cmp, r)
    ensures TotalPreorder(cmp) ==> Stable(cmp, a, r)
  {
    r := a;
    var n := |r|;
    var i := 1;
    while i < n
      invariant |r| == n && multiset(r) == multiset(a)
      invariant 1 <= i || n == 0
      invariant i <= n || n == 0
      invariant TotalPreorder(cmp) ==> Stable(cmp, a, r) && DescendingBetween(cmp, r, 0, i)
    {
      var r', pos := Insert(r, i, cmp);
      InsertPermutes(r, r', i, pos);
      if TotalPreorder(cmp) {
        InsertedAtFromConcat(r, r', i, pos);
        InsertKeepsOrder(cmp, r, r', i, pos);
        InsertIsStable(cmp, r, r', i, pos);
        StableTrans(cmp, a, r, r');
      }
      r := r';
      i := i + 1;
    }
  }
}

=== FILE: stability.dfy ===
/**
 * Stability: a sort is stable when elements that compare equal keep their relative order.
 *
 * `Filter(cmp, s, x)` lists, in order, the elements of `s` equivalent to `x`. A result `r` is a
 * stable rearrangement of `a` when, for every `x`, both list the same elements in the same order.
 */
module Stability {
  import opened Ordering
  import opened Permutation

  /** The elements of `s` that compare equal to `x`, in their order in `s`. */
  function Filter<T>(cmp: (T, T) -> int, s: seq<T>, x: T): (r: seq<T>)
    ensures |r| <= |s|
    ensures forall k :: 0 <= k < |r| ==> cmp(r[k], x) == 0
  {
    if |s| == 0 then []
    else (if cmp(s[0], x) == 0 then [s[0]] else []) + Filter(cmp, s[1..], x)
  }

  /** Every class of equivalent elements appears in `r` in the same order as in `a`. */
  ghost predicate Stable<T(!new)>(cmp: (T, T) -> int, a: seq<T>, r: seq<T>) {
    forall x :: Filter(cmp, r, x) == Filter(cmp, a, x)
  }

  /** Concatenation is associative; stated once because the solver is slow to find it. */
  lemma ConcatAssoc<T>(a: seq<T>, b: seq<T>, c: seq<T>)
    ensures a + (b + c) == (a + b) + c
  {
  }

  /** `Filter` on a non-empty sequence: the verdict on the head, then the rest. */
  lemma FilterCons<T>(cmp: (T, T) -> int, s: seq<T>, x: T)
    requires |s| > 0
    ensures Filter(cmp, s, x) == Filter(cmp, [s[0]], x) + Filter(cmp, s[1..], x)
  {
    FilterConcat(cmp, [s[0]], s[1..], x);
    assert s == [s[0]] + s[1..];
  }

  lemma {:induction false} FilterConcat<T>(cmp: (T, T) -> int, a: seq<T>, b: seq<T>, x: T)
    ensures Filter(cmp, a + b, x) == Filter(cmp, a, x) + Filter(cmp, b, x)
  {
    if |a| == 0 {
      assert a + b == b;
    } else {
      assert (a + b)[1..] == a[1..] + b;
      FilterConcat(cmp, a[1..], b, x);
    }
  }

  /** A sequence holding nothing equivalent to `x` filters to the empty list. */
  lemma {:induction false} FilterNone<T>(cmp: (T, T) -> int, s: seq<T>, x: T)
    requires forall k :: 0 <= k < |s| ==> cmp(s[k], x) != 0
    ensures Filter(cmp, s, x) == []
  {
    if |s| > 0 {
      FilterNone(cmp, s[1..], x);
    }
  }

  /** The elements `Filter` keeps are elements of `s`. */
  lemma {:induction false} FilterIn<T>(cmp: (T, T) -> int, s: seq<T>, x: T)
    ensures multiset(Filter(cmp, s, x)) <= multiset(s)
  {
    if |s| > 0 {
      FilterIn(cmp, s[1..], x);
      assert s == [s[0]] + s[1..];
    }
  }

  /** Every occurrence of `e` in `s` survives filtering by `e` itself. */
  lemma {:induction false} FilterKeepsCount<T(!new)>(cmp: (T, T) -> int, s: seq<T>, e: T)
    requires TotalPreorder(cmp)
    ensures multiset(Filter(cmp, s, e))[e] == multiset(s)[e]
  {
    if |s| > 0 {
      FilterKeepsCount(cmp, s[1..], e);
      assert s == [s[0]] + s[1..];
      Reflexive(cmp, e);
    }
  }

  /** Stability is the stronger promise: a stable rearrangement is a permutation. */
  lemma StableIsPermutation<T(!new)>(cmp: (T, T) -> int, a: seq<T>, r: seq<T>)
    requires TotalPreorder(cmp)
    requires Stable(cmp, a, r)
    ensures multiset(r) == multiset(a)
  {
    forall e
      ensures multiset(r)[e] == multiset(a)[e]
    {
      FilterKeepsCount(cmp, r, e);
      FilterKeepsCount(cmp, a, e);
      assert Filter(cmp, r, e) == Filter(cmp, a, e);
    }
  }

  lemma FilterThree<T>(cmp: (T, T) -> int, p: seq<T>, m: seq<T>, q: seq<T>, x: T)
    ensures Filter(cmp, p + m + q, x) == Filter(cmp, p, x) + Filter(cmp, m, x) + Filter(cmp, q, x)
  {
    FilterConcat(cmp, p + m, q, x);
    FilterConcat(cmp, p, m, x);
  }

  /** Two elements ordered strictly cannot both be equivalent to the same `x`. */
  lemma StrictNotBothEquivalent<T(!new)>(cmp: (T, T) -> int, a: T, b: T, x: T)
    requires TotalPreorder(cmp)
    requires cmp(a, b) < 0
    ensures !(cmp(a, x) == 0 && cmp(b, x) == 0)
  {
  }

  /** Exchanging two neighbours that do not compare equal leaves every class's order intact:
      this is why bubble sort, which swaps only on a strict comparison, is stable. */
  lemma SwapUnequalNeighbours<T(!new)>(cmp: (T, T) -> int, s: seq<T>, j: int)
    requires TotalPreorder(cmp)
    requires 0 <= j < |s| - 1
    requires cmp(s[j], s[j + 1]) < 0
    ensures Stable(cmp, s, Swap(s, j, j + 1))
  {
    var r := Swap(s, j, j + 1);
    var p, a, b, q := s[..j], s[j], s[j + 1], s[j + 2..];
    assert s == p + [a, b] + q;
    assert r == p + [b, a] + q;
    forall x
      ensures Filter(cmp, r, x) == Filter(cmp, s, x)
    {
      FilterThree(cmp, p, [a, b], q, x);
      FilterThree(cmp, p, [b, a], q, x);
      StrictNotBothEquivalent(cmp, a, b, x);
      assert Filter(cmp, [a, b], x) == Filter(cmp, [b, a], x);
    }
  }

  lemma StableTrans<T(!new)>(cmp: (T, T) -> int, a: seq<T>, b: seq<T>, c: seq<T>)
    requires Stable(cmp, a, b) && Stable(cmp, b, c)
    ensures Stable(cmp, a, c)
  {
  }

  /** A greatest-first order that keeps every class of equivalent elements in a given order is
      unique: two such arrangements of the same classes are equal. */
  lemma {:induction false} StableDescendingUnique<T(!new)>(cmp: (T, T) -> int, r1: seq<T>, r2: seq<T>)
    requires TotalPreorder(cmp)
    requires Descending(cmp, r1) && Descending(cmp, r2)
    requires Stable(cmp, r2, r1)
    ensures r1 == r2
    decreases |r1|
  {
    StableIsPermutation(cmp, r2, r1);
    assert |r1| == |multiset(r1)| == |r2|;
    if |r1| > 0 {
      HeadsEquivalent(cmp, r1, r2);
      SameHead(cmp, r1, r2);
      TailsStable(cmp, r1, r2);
      DescendingTail(cmp, r1);
      DescendingTail(cmp, r2);
      StableDescendingUnique(cmp, r1[1..], r2[1..]);
      assert r1 == [r1[0]] + r1[1..] && r2 == [r2[0]] + r2[1..];
    }
  }

  /** Dropping the first element keeps an arrangement greatest-first. */
  lemma DescendingTail<T>(cmp: (T, T) -> int, s: seq<T>)
    requires Descending(cmp, s) && |s| > 0
    ensures Descending(cmp, s[1..])
  {
    forall i, j | 0 <= i < j < |s| - 1
      ensures cmp(s[1..][i], s[1..][j]) >= 0
    {
      assert s[1..][i] == s[i + 1] && s[1..][j] == s[j + 1];
    }
  }

  /** The first elements of two greatest-first arrangements of the same elements are equivalent. */
  lemma HeadsEquivalent<T(!new)>(cmp: (T, T) -> int, r1: seq<T>, r2: seq<T>)
    requires TotalPreorder(cmp)
    requires Descending(cmp, r1) && Descending(cmp, r2)
    requires multiset(r1) == multiset(r2) && |r1| > 0
    ensures cmp(r1[0], r2[0]) == 0
  {
    var h1, h2 := r1[0], r2[0];
    assert h1 in multiset(r2) && h2 in multiset(r1);
    var i :| 0 <= i < |r1| && r1[i] == h2;
    var j :| 0 <= j < |r2| && r2[j] == h1;
    Reflexive(cmp, h1);
    Reflexive(cmp, h2);
    assert cmp(h1, h2) >= 0 && cmp(h2, h1) >= 0;
  }

  /** Equivalent first elements of two arrangements with the same classes are the same element:
      each is the first of its class. */
  lemma SameHead<T(!new)>(cmp: (T, T) -> int, r1: seq<T>, r2: seq<T>)
    requires TotalPreorder(cmp)
    requires |r1| > 0 && |r2| > 0 && cmp(r1[0], r2[0]) == 0
    requires Stable(cmp, r2, r1)
    ensures r1[0] == r2[0]
  {
    var h1, h2 := r1[0], r2[0];
    Reflexive(cmp, h1);
    FilterCons(cmp, r1, h1);
    FilterCons(cmp, r2, h1);
    assert Filter(cmp, r1, h1)[0] == h1;
    assert Filter(cmp, r2, h1)[0] == h2;
    assert Filter(cmp, r1, h1) == Filter(cmp, r2, h1);
  }

  /** Removing the same first element from two arrangements with the same classes leaves two
      arrangements with the same classes. */
  lemma TailsStable<T(!new)>(cmp: (T, T) -> int, r1: seq<T>, r2: seq<T>)
    requires |r1| > 0 && |r2| > 0 && r1[0] == r2[0]
    requires Stable(cmp, r2, r1)
    ensures Stable(cmp, r2[1..], r1[1..])
  {
    forall x
      ensures Filter(cmp, r1[1..], x) == Filter(cmp, r2[1..], x)
    {
      FilterCons(cmp, r1, x);
      FilterCons(cmp, r2, x);
      var head := Filter(cmp, [r1[0]], x);
      assert Filter(cmp, r1[1..], x) == Filter(cmp, r1, x)[|head|..];
      assert Filter(cmp, r2[1..], x) == Filter(cmp, r2, x)[|head|..];
    }
  }
}

=== FILE: text.dfy ===
/**
 * The few `java.lang.String` operations the command-line handling and the dispatch rely on:
 * lower-casing, `trim` and "blank after trimming".
 *
 * Characters are compared by code point. `toLowerCase` is modelled on ASCII letters only.
 */
module Text {

  /** `Character.toLowerCase` restricted to ASCII: `A`..`Z` become `a`..`z`, everything else stays. */
  function ToLowerChar(c: char): (r: char)
    ensures 'A' <= c <= 'Z' ==> r as int == c as int + 32
    ensures !('A' <= c <= 'Z') ==> r == c
    ensures !('A' <= r <= 'Z')
  {
    if 'A' <= c <= 'Z' then (c as int + 32) as char else c
  }

  /** `String.toLowerCase`, character by character. */
  function ToLower(s: string): (r: string)
    ensures |r| == |s|
    ensures forall i :: 0 <= i < |s| ==> r[i] == ToLowerChar(s[i])
  {
    if |s| == 0 then [] else [ToLowerChar(s[0])] + ToLower(s[1..])
  }

  /** A lower-cased string has no upper-case letter left. */
  predicate NoUpper(s: string) {
    forall i :: 0 <= i < |s| ==> !('A' <= s[i] <= 'Z')
  }

  /** Lower-casing twice is lower-casing once; a string without upper-case letters is its own
      lower-case form. */
  lemma ToLowerIdempotent(s: string)
    ensures NoUpper(ToLower(s))
    ensures ToLower(ToLower(s)) == ToLower(s)
    ensures NoUpper(s) <==> ToLower(s) == s
  {
    if NoUpper(s) {
      assert forall i :: 0 <= i < |s| ==> ToLower(s)[i] == s[i];
    }
  }

  /** Every character is a space or a control character: what `String.trim` removes. */
  predicate IsBlank(s: string) {
    forall i :: 0 <= i < |s| ==> s[i] <= ' '
  }

  /** Drop the leading characters at or below the space character. The result is the longest
      suffix whose first character, if any, is above it. */
  function TrimStart(s: string): (r: string)
    ensures |r| <= |s| && r == s[|s| - |r|..]
    ensures IsBlank(s[..|s| - |r|])
    ensures |r| > 0 ==> r[0] > ' '
  {
    if |s| > 0 && s[0] <= ' ' then TrimStart(s[1..]) else s
  }

  /** Drop the trailing characters at or below the space character. */
  function TrimEnd(s: string): (r: string)
    ensures |r| <= |s| && r == s[..|r|]
    ensures IsBlank(s[|r|..])
    ensures |r| > 0 ==> r[|r| - 1] > ' '
  {
    if |s| > 0 && s[|s| - 1] <= ' ' then TrimEnd(s[..|s| - 1]) else s
  }

  /** `String.trim`. */
  function Trim(s: string): string {
    TrimEnd(TrimStart(s))
  }

  /** `trim().isEmpty()` holds exactly for blank strings, and the trimmed string otherwise starts
      and ends above the space character. */
  lemma TrimEmptyIffBlank(s: string)
    ensures Trim(s) == [] <==> IsBlank(s)
    ensures Trim(s) != [] ==> Trim(s)[0] > ' ' && Trim(s)[|Trim(s)| - 1] > ' '
  {
    var t := TrimStart(s);
    if Trim(s) == [] {
      assert IsBlank(t[0..]);
      assert s == s[..|s| - |t|] + t;
    } else {
      assert t[0] > ' ';
    }
  }

  /** Trimming removes exactly the blanks around a string that starts and ends above the space
      character. */
  lemma TrimPadded(pre: string, core: string, post: string)
    requires IsBlank(pre) && IsBlank(post)
    requires |core| > 0 && core[0] > ' ' && core[|core| - 1] > ' '
    ensures Trim(pre + core + post) == core
  {
    TrimStartBlank(pre, core + post);
    assert pre + core + post == pre + (core + post);
    TrimEndBlank(core, post);
  }

  /** Leading blanks in front of a string that starts above the space character are dropped. */
  lemma {:induction false} TrimStartBlank(pre: string, rest: string)
    requires IsBlank(pre) && |rest| > 0 && rest[0] > ' '
    ensures TrimStart(pre + rest) == rest
    decreases |pre|
  {
    if |pre| > 0 {
      assert (pre + rest)[1..] == pre[1..] + rest;
      TrimStartBlank(pre[1..], rest);
    }
  }

  /** Trailing blanks behind a string that ends above the space character are dropped. */
  lemma {:induction false} TrimEndBlank(rest: string, post: string)
    requires IsBlank(post) && |rest| > 0 && rest[|rest| - 1] > ' '
    ensures TrimEnd(rest + post) == rest
    decreases |post|
  {
    if |post| > 0 {
      assert (rest + post)[..|rest + post| - 1] == rest + post[..|post| - 1];
      TrimEndBlank(rest, post[..|post| - 1]);
    }
  }
}

=== FILE: ties.dfy ===
/**
 * How quick sort and heap sort treat equivalent elements: each can reorder an array that is
 * already in its own order, so neither is idempotent. The elements here are pairs compared on
 * their first component only, so two pairs with the same first component are equivalent yet
 * different.
 */
module Ties {
  import opened Ordering
  import QuickSort
  import HeapSort
  import MergeSort

  /** An element with a sort key and a tag the comparator does not look at. */
  type Tagged = (int, int)

  /** Compare on the key only. */
  function ByKey(x: Tagged, y: Tagged): int {
    IntCompare(x.0, y.0)
  }

  /** Comparing on the key meets the comparator contract. */
  lemma ByKeyIsTotalPreorder()
    ensures TotalPreorder(ByKey)
  {
  }

  /** A greatest-first input whose last two elements are equivalent. */
  const SortedTies: seq<Tagged> := [(2, 0), (1, 0), (1, 1)]

  /** Quick sort moves the last element of `SortedTies`, its first pivot, in front of the element
      equivalent to it: the already ordered input comes back in a different order. */
  method QuickSortReordersTies() returns (r: seq<Tagged>)
    ensures Descending(ByKey, SortedTies)
    ensures r == [(2, 0), (1, 1), (1, 0)] && r != SortedTies
  {
    r := QuickSort.QuickSort(SortedTies, ByKey);
    SettledTies(r);
    SortedTiesOrdered();
  }

  /** `SortedTies` is greatest-first. */
  lemma SortedTiesOrdered()
    ensures Descending(ByKey, SortedTies)
  {
  }

  /** Quick sort's promise on `SortedTies` leaves one result. */
  lemma SettledTies(r: seq<Tagged>)
    requires multiset(r) == multiset(SortedTies)
    requires exists p :: QuickSort.LastSettled(ByKey, SortedTies, r, p)
    ensures r == [(2, 0), (1, 1), (1, 0)]
  {
    var p :| QuickSort.LastSettled(ByKey, SortedTies, r, p);
    SettledAtOne(r, p);
  }

  /** The only arrangement of `SortedTies` with `(1, 1)` following exactly the elements strictly
      above it. */
  lemma SettledAtOne(r: seq<Tagged>, p: int)
    requires multiset(r) == multiset(SortedTies)
    requires QuickSort.LastSettled(ByKey, SortedTies, r, p)
    ensures r == [(2, 0), (1, 1), (1, 0)]
  {
    var m := multiset(SortedTies);
    assert m == multiset{(2, 0), (1, 0), (1, 1)};
    assert |r| == 3 by {
      assert |multiset(r)| == |r|;
    }
    assert r == [r[0], r[1], r[2]];
    assert multiset(r) == multiset{r[0], r[1], r[2]};
    assert r[p] == (1, 1);
    if p != 1 {
      assert false;
    }
    assert r[0] == (2, 0);
    assert multiset(r) - multiset{r[0], r[1]} == multiset{r[2]};
  }

  /** Two equivalent elements, in an order that is both greatest-first and least-first. */
  const TwoTies: seq<Tagged> := [(1, 0), (1, 1)]

  /** Heap sort exchanges two equivalent elements: the input is already a heap, so the root
      `(1, 0)` is swapped to the end. The input is already in heap sort's own least-first order,
      and in the other five's order too. */
  method HeapSortReversesTies() returns (r: seq<Tagged>)
    ensures Ascending(ByKey, TwoTies) && Descending(ByKey, TwoTies)
    ensures r == [(1, 1), (1, 0)] && r != TwoTies
  {
    r := HeapSort.HeapSort(TwoTies, ByKey);
    HeapSortedTies(r);
    TwoTiesOrdered();
  }

  /** `TwoTies` is in both orders. */
  lemma TwoTiesOrdered()
    ensures Ascending(ByKey, TwoTies) && Descending(ByKey, TwoTies)
  {
  }

  /** Heap sort's promise on `TwoTies` leaves one result. */
  lemma HeapSortedTies(r: seq<Tagged>)
    requires |r| == |TwoTies| && multiset(r) == multiset(TwoTies)
    requires TotalPreorder(ByKey) && HeapSort.HeapFrom(ByKey, TwoTies, |TwoTies|, 0) ==> r[|TwoTies| - 1] == TwoTies[0]
    ensures r == [(1, 1), (1, 0)]
  {
    ByKeyIsTotalPreorder();
    TwoTiesIsHeap();
    RootLast(r);
  }

  /** `TwoTies` is already a heap: its root is not below its only child. */
  lemma TwoTiesIsHeap()
    ensures HeapSort.HeapFrom(ByKey, TwoTies, |TwoTies|, 0)
  {
    assert HeapSort.HeapAt(ByKey, TwoTies, 2, 0);
    assert HeapSort.HeapAt(ByKey, TwoTies, 2, 1);
  }

  /** The only arrangement of `TwoTies` that ends with `(1, 0)`. */
  lemma RootLast(r: seq<Tagged>)
    requires |r| == 2 && multiset(r) == multiset(TwoTies) && r[1] == (1, 0)
    ensures r == [(1, 1), (1, 0)]
  {
    assert r == [r[0], r[1]];
    assert r[0] in multiset(r);
    assert multiset(r) == multiset{r[0], (1, 0)};
  }

  /** Rock, paper, scissors as 0, 1, 2: each beats the next one round the cycle. The sign flips
      when the arguments are exchanged, but "beats" is not transitive. */
  function Cyclic(x: int, y: int): int {
    if x == y then 0 else if (x + 1) % 3 == y then 1 else -1
  }

  /** With a comparator that breaks the contract the stable sorts can disagree: bubble and
      insertion sort compare `Rock` with `Scissors` and `Scissors` with `Paper` and move nothing,
      while merge sort takes `Paper` ahead of `Rock`. */
  lemma CyclicMergeReorders()
    ensures !TotalPreorder(Cyclic)
    ensures Cyclic(0, 1) > 0 && Cyclic(1, 2) > 0
    ensures MergeSort.MergeSortSeq(Cyclic, [0, 1, 2]) == [2, 0, 1]
  {
    assert Cyclic(0, 1) >= 0 && Cyclic(1, 2) >= 0 && Cyclic(0, 2) < 0;
    assert MergeSort.LeftHalf(3) == 2 && MergeSort.LeftHalf(2) == 1;
    assert [0, 1, 2][..2] == [0, 1] && [0, 1, 2][2..] == [2];
    assert [0, 1][..1] == [0] && [0, 1][1..] == [1];
    var left := MergeSort.MergeSortSeq(Cyclic, [0, 1]);
    assert left == MergeSort.MergeSeq(Cyclic, [0], [1]) == [0, 1];
    assert MergeSort.MergeSortSeq(Cyclic, [2]) == [2];
    assert MergeSort.MergeSeq(Cyclic, [0, 1], [2]) == [2] + MergeSort.MergeSeq(Cyclic, [0, 1], []);
  }
}
